=== FILE: README.md ===
# Birthday and morning-greeting bot, modelled in Dafny

`main.py` is a Telegram bot backed by SQLite. This project models its three pieces of stateful logic:

- **The chat registry and the morning mailing.** Chats are registered for a daily mailing at a stored `HH:MM` time. Each minute, every active chat whose time equals the clock reading gets one message: either a good-morning greeting, or a header, one `@name` line per member whose birthday is today, and a closing line. The message carries a randomly chosen stored photo when there is one. `/set_mailing_time` changes one chat's time.
- **The member directory and birthday records.** `user_chats` is an upsert keyed by (user, chat). It is fed by new-member events and by a nightly refresh from each active chat's administrators. `/admin_add_birthday @handle date` resolves the handle through the directory and writes the birthday row.
- **The conversation state machine.** `user_states` maps a user to one of `waiting_birthday`, `waiting_photo` or `waiting_get_photo`. Commands arm a state. `form_birth`, `handle_photo` and `get_photo` consume the next message and clear or keep the state depending on the outcome. `/cancel` clears it. The fallback text handler routes on it.

## Layout

- `wrappers.dfy` (`Wrappers`): `Option`.
- `text.dfy` (`Text`): Python's `str.split()` (`Words`), `int()` (`ParseInt`), `replace('@', '')` (`StripAt`), `x or default` (`OrElse`), line splitting, and decimal rendering.
- `clock.dfy` (`Clock`): the configured date format as a fixed-width `DD<sep>MM<sep>YYYY` parser and formatter, the `%d-%m` day reading, and the `%H:%M` time format.
- `gateway.dfy` (`Gateway`): what the bot sends (`Outbound`). Reply texts other than the mailing body are named by kind.
- `tables.dfy` (`Tables`): the rows of the four tables, the inbound events and the `World` value (tables, `user_states`, sent log). It also holds the configuration and the SQL statements as functions over tables.
- `mailing.dfy` (`Mailing`): registry properties, `/set_mailing_time`, the birthday query, the message composer and one mailing tick.
- `directory.dfy` (`Directory`): the administrator refresh, new-member events and `/admin_add_birthday`.
- `conversation.dfy` (`Conversation`): the conversation handlers and multi-message scenarios.
- `bot.dfy` (`BirthdayBot`): class `Bot`. Its fields are the four tables, `user_states` and the sent log, and each method updates them in place. Every method is proved to leave the object in exactly the state its step function computes from the state before the call. The step functions are the ones the lemmas above are about.

The world outside the process enters as parameters:
- The clock is passed as `now` (`HH:MM`) and `today` (`DD-MM`).
- `ORDER BY RANDOM()` becomes a draw `pick`.
- Each chat's administrator list is a `roster` map. A chat missing from it is one whose query raises.
- The gateway's failures are a set `cfg.unreachable` of chats to which every send raises.
- A database error inside a handler's `try` is a `fault` flag.

A send that raises inside an `except` branch escapes the handler. Most handlers commit their database write before replying, when they leave the `with sql.connect(...)` block, so a handler whose reply cannot be delivered keeps what it had written before the reply and nothing after it. `admin_add_birthday` is the exception: its write and its reply sit in the same `with` block (main.py:396-410), so a reply that raises rolls the write back.

## Model

| member | source | states |
|---|---|---|
| Text.Words | main.py:300 | every word of `str.split()` is non-empty and has no whitespace |
| Text.WordsOfUnwords | main.py:300-301 | splitting words joined by single spaces gives back those words |
| Text.ParseShowInt | main.py:302 | `int()` accepts the decimal rendering of every integer, negative ones included, and returns that integer |
| Text.ParseInt | main.py:302 | an accepted text is an optional sign followed by at least one digit, and one without a sign gives a non-negative value; `ParseShowInt` shows every integer's rendering is accepted |
| Text.StripAt | main.py:386 | the handle has no `@` left, and a handle without `@` is unchanged; with `StripAtAppend` and `StripAtOne` this pins the result down completely |
| Text.StripAtAppend | main.py:386 | removing `@` from a concatenation is removing it from each part and concatenating, so every other character is kept in order |
| Text.StripAtOne | main.py:386 | a single `@` is removed and any other single character is kept |
| Text.OrElse | main.py:209 | `x or default` (also main.py:246): a non-empty value is used as is; an absent or empty value is never used, the default is |
| Clock.FormatDate | main.py:161 | the normalised date is ten characters with the format's separator at positions 2 and 5 |
| Clock.ParseFormatDate | main.py:160-161 | parsing the normalised form of a valid date gives back that date |
| Clock.ParseDate | main.py:160 | `strptime` with the date format (also main.py:390): an accepted text is ten characters with the format's separator at positions 2 and 5, and denotes a valid calendar date; `ParseFormatDate` shows every valid date's normal form is accepted |
| Clock.FormatParsedDate | main.py:160-161 | for the model's strict fixed-width parser, a text that parses is already in normalised form, so storing the re-formatted date stores the text as typed (Python's lenient `strptime` differs; see Left out) |
| Clock.ValidTimeIsClockReading | main.py:305 | for the model's strict parser, a time passes the `%H:%M` check exactly when it is the zero-padded reading of some hour below 24 and minute below 60 (Python's lenient `strptime` differs; see Left out) |
| Clock.ValidTime | main.py:305 | an accepted time is five characters: two digits, `:`, two digits; `ValidTimeIsClockReading` characterises it completely |
| Tables.Emit | main.py:133-135 | a send to a reachable chat appends one entry to the sent log; any other send changes nothing |
| Tables.EmitThenForget | main.py:250-251 | a reply that goes through appends that one entry and removes the user's state, every other user's state keeping its value; one that raises leaves everything as it was |
| Tables.Ascending | main.py:57-58 | rows scanned by primary key come out strictly increasing and are exactly the set |
| Tables.DueChats | main.py:53-58 | the due list is strictly increasing and holds exactly the active chats whose stored time equals `now` |
| Tables.ActiveChats | main.py:87-88 | the refresh list holds exactly the active chats, in key order |
| Tables.PhotoByCaption | main.py:190-191 | a hit is the file of a photo carrying that caption; a miss means no photo carries it |
| Tables.RandomPhoto | main.py:65-73 | a photo is drawn exactly when the table is non-empty, and it is a stored file id |
| Tables.Find | main.py:36-43 | a row is found for a (user, chat) key exactly when some row carries that key |
| Tables.Upsert | main.py:75-81 | after the upsert the key holds the new row, every other key finds what it found before, and keys stay unique |
| Tables.InsertChat | main.py:50 | `INSERT OR IGNORE`: the id becomes a key, a new chat is active with the given title and time, and every existing chat keeps its row |
| Tables.SetChatTime | main.py:63 | `UPDATE ... SET mailing_time`: no key is added or removed, only that chat's time changes, and titles and activity stay |
| Tables.SetDate | main.py:164 | `UPDATE birthdays SET birthday_date`: no row is added or removed, only that user's date changes, and every name stays |
| Tables.Resolve | main.py:398-399 | a resolved id belongs to a row with that username; no resolution means no row has it |
| Mailing.AddChatIdempotent | main.py:47-51 | registering an already registered chat changes nothing, so registering twice is registering once |
| Mailing.NewChatDueAtDefault | main.py:47-58 | a newly registered chat is active with time `09:00`, is due exactly at `09:00`, and does not change whether any other chat is due |
| Mailing.SetChatTimeSchedule | main.py:60-63 | after an update an active chat is due exactly at the new time, and no other chat's schedule moves |
| Mailing.ParseTimeArgs | main.py:300-305 | a usage error exactly when there are not three words; a bad id exactly when the second word is not an integer; a bad time exactly when the id is an integer and the third word is no `HH:MM`; accepted exactly otherwise, with the id as parsed and the third word as typed |
| Mailing.ParseTimeArgsAccepts | main.py:300-305 | every well-formed `/set_mailing_time <id> <HH:MM>` command is accepted with that id and time |
| Mailing.SetMailingTimeStep | main.py:296-317 | only the chats and the sent log can change; the chats change only for an admin's well-formed command whose id fits SQLite's 64-bit INTEGER and whose store does not fail, and then only that chat's time is set to the argument verbatim; the one reply is, in order of the checks, no rights, usage, bad id, bad time, failure (store error or id overflow), or the confirmation with id and time |
| Mailing.Distinct | main.py:117 | `SELECT DISTINCT`: no duplicates and the same elements |
| Mailing.Subjects | main.py:117-122 | a chat's subjects are duplicate-free and are exactly the names of users whose stored date starts with today and who have a row for the chat |
| Mailing.StoredDateMatches | main.py:106-120 | a stored normalised date matches the `%d-%m` reading exactly when the format's separator is `-` and day and month agree |
| Mailing.ComposeMessage | main.py:124-130 | the loop that builds the text computes the composed message |
| Mailing.Compose | main.py:124-130 | no subjects gives the greeting; otherwise the text starts with the header line and its break and ends with the closing line; `ComposeLines` gives the lines in between |
| Mailing.ComposeLines | main.py:124-130 | no subjects gives the one-line greeting; otherwise the lines are the header, one `@name` per subject in order, and the closing line |
| Mailing.MailingLogEntries | main.py:113-135 | every delivery of a tick goes to a due, reachable chat, carries that chat's composed text and uses the photo drawn once for the tick |
| Mailing.Delivery | main.py:132-135 | the delivery goes to the chat; it is a photo carrying the file and the text as caption exactly when a non-empty photo was drawn, and otherwise the plain text message |
| Mailing.MailingLog | main.py:113-137 | at most one delivery per due chat, and none without due chats; `MailingLogEntries` and `MailingLogOnce` state which |
| Mailing.MailingLogOnce | main.py:113-137 | each reachable due chat gets exactly one delivery and no other chat gets any; an unreachable chat does not stop the later ones |
| Mailing.MorningMailingStep | main.py:104-139 | a tick changes only the sent log, and a tick with no due chat sends nothing |
| Mailing.MorningMailingDelivers | main.py:104-139 | in one tick a chat gets one delivery exactly when it is active, due now and reachable; a delivery is a photo with caption exactly when a non-empty photo was drawn, and always that same photo |
| Directory.UpsertAll | main.py:94-96 | upserting a chat's administrators keeps keys unique, leaves every other chat's rows alone, and in that chat leaves the row of every user who is not among them exactly as it was |
| Directory.UpsertAllCovers | main.py:94-96 | every administrator upserted has a row for the chat holding the id, username and names of their last appearance in the list, and rows present before stay |
| Directory.Refresh | main.py:90-100 | the nightly refresh keeps keys unique |
| Directory.RefreshCovers | main.py:90-100 | after the refresh every administrator of every answering active chat has a row for it holding their id, username and names, whatever failed in other chats, and no row is lost |
| Directory.RefreshFrame | main.py:90-100 | a user who is not an administrator of an answering chat keeps that chat's row exactly as it was, contents included |
| Directory.RefreshSkipsSilentChats | main.py:99-100 | a chat whose administrator query raises keeps its rows as they were |
| Directory.UpdateChatMembersStep | main.py:83-102 | the refresh job changes only `user_chats` and keeps its key unique |
| Directory.JoinAsWrittenNeverWelcomes | main.py:352-372 | as written, when the bot's own user is flagged a bot, a new-members event never sends anything |
| Directory.JoinAsWritten | main.py:352-372 | the handler as written changes only `user_chats` and the sent log, keeps keys unique, and touches no other chat's rows; `JoinAsWrittenNeverWelcomes` and `JoinAsWrittenSkipsBots` state the rest |
| Directory.JoinStep | main.py:352-372 | a new-members event changes only `user_chats` and the sent log, appends only welcomes, keeps keys unique and touches no other chat's rows |
| Directory.JoinWelcomesAndRecords | main.py:352-372 | with the chat reachable, the event is welcomed exactly when the bot is among the newcomers, and every human newcomer gets a row holding their id, username and names |
| Directory.JoinSkipsBots | main.py:354-362 | a newcomer flagged as a bot gets no row: the row for a user all of whose appearances are bots (or the bot itself) is left as it was |
| Directory.JoinAsWrittenSkipsBots | main.py:354-362 | as written, a user all of whose appearances are flagged bots keeps the row it had |
| Directory.JoinKeepsRows | main.py:354-362 | rows present before a new-members event are present after it |
| Directory.ParseBirthdayArgs | main.py:381-394 | a usage error exactly when there are not three words; a bad date only when the third word does not parse; an accepted handle is the second word without `@` and the date is valid |
| Directory.ParseBirthdayArgsAccepts | main.py:381-391 | every well-formed `/admin_add_birthday @handle date` is accepted with that handle and date |
| Directory.AdminAddBirthdayStep | main.py:374-413 | only the birthdays and the sent log change; a birthday changes only for an admin's well-formed command whose handle resolves and whose confirmation goes through, and then the resolved user's row becomes the handle with the normalised date; with the chat unreachable nothing changes (the write is rolled back); the one reply is, in order of the checks, no rights, usage, bad date, failure, user not found, or the confirmation |
| Directory.AssignedBirthdayCelebrated | main.py:374-413 | a birthday an admin assigns, from a reachable chat, to a chat member is celebrated in that chat on the day under that handle when the format separates with `-` |
| Conversation.SetBirthdayStep | main.py:206-217 | the sender's row is replaced by (username or `Null`, no date), the sender waits for a date, other rows are unchanged, and the date prompt is sent |
| Conversation.CallbackStep | main.py:219-224 | the `add_birthday` button arms `waiting_birthday`, sends the date prompt and writes no table; any other button changes nothing |
| Conversation.AddPhotoStep | main.py:226-232 | an admin is armed for an upload and gets the upload prompt; anyone else's state is unchanged and they get the no-rights reply; no table changes |
| Conversation.RequestPhotoStep | main.py:234-238 | the sender is armed for a caption lookup and, when the chat is reachable, gets the caption prompt; otherwise nothing is sent; no table changes |
| Conversation.CancelStep | main.py:262-269 | the sender has no state afterwards, every other user's state is unchanged, and the reply says whether something was cancelled; an unreachable chat gets nothing sent |
| Conversation.FormBirthStep | main.py:157-177 | an unparsable date keeps the state, writes nothing and sends the format hint then the retry prompt; a parsable one stores the date as typed unless the store fails, and replies success or the error; a parsed date whose reply goes through clears the state; when the chat is unreachable the state is kept and nothing is sent; the state is at most cleared |
| Conversation.HandlePhotoStep | main.py:240-260 | a photo in `waiting_photo` is appended with its caption or `Нет подписи` unless the store fails, the state is cleared and the reply is saved or error, except that an unreachable chat keeps the state; outside that state nothing is stored, the state is kept, and an admin is pointed to `/add_photo` while anyone else gets the error reply |
| Conversation.GetPhotoStep | main.py:179-200 | a hit sends the matching file with the fixed caption and clears the state; an empty text, a store failure or a miss keeps the state and gets the caption-required, error or not-found reply; when the chat is unreachable nothing at all changes; no table changes |
| Conversation.HandleAllStep | main.py:415-429 | a text from a user without a state is ignored; in `waiting_birthday` it is `form_birth`, in `waiting_get_photo` it is `get_photo`, in `waiting_photo` only the ask-for-an-image reply is sent |
| Conversation.BirthdayEntry | main.py:206-217 | `/set_birthday` followed by a valid date stores the date as typed, which re-parses to the same date, clears the state and ends with the success reply |
| Conversation.BirthdayRetry | main.py:168-172 | any number of unparsable answers leaves the user waiting for a date with the birthdays unchanged |
| Conversation.ButtonWithoutStubStoresNothing | main.py:219-224 | the button followed by a valid date from a user with no birthday row stores nothing, yet clears the state and replies success |
| Conversation.UploadByAdmin | main.py:226-251 | an admin's `/add_photo` followed by a photo stores it and clears the state |
| Conversation.UploadByNonAdmin | main.py:226-260 | a non-admin's `/add_photo` followed by a photo stores nothing and changes no state |
| Conversation.LookupHit | main.py:179-200 | after `/get_photo`, a caption some stored photo carries sends the earliest such photo with the fixed caption and clears the state |
| Conversation.CancelThenIgnored | main.py:262-269 | after `/cancel` the user's next text is ignored |
| BirthdayBot.Bot.constructor | main.py:12-43 | the bot starts with empty tables, no states and nothing sent |
| BirthdayBot.Bot.Send | main.py:133-135 | a send succeeds exactly when the chat is reachable and is then the only entry appended |
| BirthdayBot.Bot.AddChat | main.py:47-51 | the chat table becomes the insert-or-ignore of the new chat |
| BirthdayBot.Bot.GetChatsForMailing | main.py:53-58 | returns the due list: strictly increasing, exactly the active chats whose time is `now` |
| BirthdayBot.Bot.UpdateChatMailingTime | main.py:60-63 | the named chat's time is set if the chat exists |
| BirthdayBot.Bot.MorningMailing | main.py:104-139 | the job draws one photo, stops when nothing is due, and leaves the bot in the state of one mailing tick |
| BirthdayBot.Bot.DeliverAll | main.py:113-137 | the per-chat loop appends exactly the tick's delivery log: one composed delivery per reachable due chat, in order |
| BirthdayBot.Bot.SetMailingTime | main.py:296-317 | the handler leaves the bot in the state `SetMailingTimeStep` describes |
| BirthdayBot.Bot.UpdateUserChatInfo | main.py:75-81 | the directory becomes the upsert of the row, and keys stay unique |
| BirthdayBot.Bot.UpdateChatMembers | main.py:83-102 | the nested loops over active chats and their administrators leave the bot in the state of the refresh job |
| BirthdayBot.Bot.HandleNewMembers | main.py:352-372 | the loop over newcomers leaves the bot in the state of the corrected event handler |
| BirthdayBot.Bot.AdminAddBirthday | main.py:374-413 | the handler writes the row, and restores the table when the confirmation raises, leaving the bot in the state `AdminAddBirthdayStep` describes |
| BirthdayBot.Bot.SetBirthday | main.py:206-217 | as `SetBirthdayStep` |
| BirthdayBot.Bot.CallbackMessage | main.py:219-224 | as `CallbackStep` |
| BirthdayBot.Bot.AddPhoto | main.py:226-232 | as `AddPhotoStep` |
| BirthdayBot.Bot.RequestPhoto | main.py:234-238 | as `RequestPhotoStep` |
| BirthdayBot.Bot.Cancel | main.py:262-269 | as `CancelStep` |
| BirthdayBot.Bot.FormBirth | main.py:157-177 | as `FormBirthStep` |
| BirthdayBot.Bot.HandlePhoto | main.py:240-260 | as `HandlePhotoStep` |
| BirthdayBot.Bot.GetPhoto | main.py:179-200 | as `GetPhotoStep` |
| BirthdayBot.Bot.HandleAllMessages | main.py:415-429 | as `HandleAllStep` |

## Left out

- Telegram transport, SQLite connections, the APScheduler jobs, the daemon thread and `infinity_polling` are left out (main.py:141-155, 431). One job run or one handler call is one method call, with the clock passed in.
- `add_chat_command`, `update_members_command` and `handle_group_messages` are not modelled. They are thin wrappers around `add_chat` and `update_user_chat_info`, which are modelled. `handle_group_messages` (main.py:342) is registered before `handle_all_messages` (main.py:415), and the library runs only the first matching handler. So every group or supergroup text reaches main.py:342, and the non-private guard at main.py:418 never fires. A user in `waiting_birthday` who writes in a group gets a `user_chats` row; the text is not taken as a date. `Conversation.HandleAllStep` still models the non-private branches as main.py:415-429 is written; those branches are cases the running program never reaches.
- `get_chat_id` and `/start` are not modelled. They only reply and touch no table or state.
- `register_next_step_handler` is not modelled. A date or caption answer reaches its handler only through `handle_all_messages` and the state map, so the library's possible double dispatch of one message is not captured.
- `datetime.strptime` is modelled as a strict fixed-width parser: two-digit day and month and a four-digit year with a one-character separator, or `HH:MM`. Its leniency (single-digit fields, surrounding whitespace) is not modelled. Two consequences follow. `/set_mailing_time <id> 9:05` is accepted by main.py:303-306 and stores `9:05` verbatim, so that chat is never due, because the clock reads `09:05`; the model replies with the bad-time message instead. `form_birth` stores the normalised `01.06.1990` for a typed `1.6.1990` (main.py:160-161); the model rejects `1.6.1990`, so every date it stores is stored as typed. The date format is a parameter, `DD<sep>MM<sep>YYYY` with the separator left open. The time format is fixed at `%H:%M`, the value the usage texts at main.py:309-311 assume.
- Text.Words: only ASCII whitespace and the control separators count as whitespace, not the other Unicode spaces Python's `split()` also splits on.
- Text.ParseInt: underscores between digits and non-ASCII digits, which Python's `int()` accepts, are rejected.
- Reply texts other than the mailing body are named by kind rather than spelled out, since nothing depends on their wording.
- The outer `try` around each whole job (main.py:101-102, 138-139) is not modelled. Only the per-chat failures inside it are: an unreachable chat, or a chat missing from the roster.
- `SELECT ... LIMIT 1` and `fetchall` return rows in primary-key order for `chats` and `birthdays`, and in insertion order for `photo` and `user_chats`. An `INSERT OR REPLACE` moves the row to the end. This is SQLite's usual plan for these queries, not a guarantee.
- `ORDER BY RANDOM() LIMIT 1` is the row at index `pick mod n`.
- The mailing text follows `main.py`'s two-way branch: greeting, or header with mention lines and closing. A per-count phrasing for one, two, or three or more subjects is not what this file does.
- Chat and user ids are unbounded integers. The only id that can exceed SQLite's 64-bit INTEGER is the one typed into `/set_mailing_time`; that case is modelled as the error reply. The ids Telegram delivers are taken to fit.
- BirthdayBot.Bot.HandleNewMembers: the class runs the corrected new-members handler (`Directory.JoinStep`), which welcomes the bot's own arrival. The code as written never sends that welcome (main.py:355), and it also records a non-bot user carrying the bot's id. That behaviour is modelled only by `Directory.JoinAsWritten` and its lemmas, not by the class.
- `get_random_photo` swallows its own database errors (main.py:72-73). A failed draw is the same as an empty photo table, so it needs no case of its own.

## Findings

| source | as written | input that shows it | evidently intended | confidence | as-written member | corrected member |
|---|---|---|---|---|---|---|
| main.py:354-372 | Newcomers with `is_bot` set are skipped before the test for the bot's own id, so the welcome for the bot joining a chat is never sent. | A `new_chat_members` event whose only member is the bot itself: Telegram marks that user `is_bot = true`. | Send the welcome when the bot itself joins, and record human newcomers. | not executed | Directory.JoinAsWrittenNeverWelcomes | Directory.JoinWelcomesAndRecords |

=== FILE: bot.dfy ===
/**
  The bot process: the four tables and the `user_states` dictionary as fields
  updated in place, the outbound log of the gateway, and one method per job
  and handler. Each method is proved to leave the object in the state its
  step function computes from the state before the call.
*/
module BirthdayBot {
  import opened Wrappers
  import opened Text
  import opened Clock
  import opened Gateway
  import opened Tables
  import opened Mailing
  import opened Conversation
  import opened Directory

  class Bot {
    const cfg: Config
    var chats: map<ChatId, Chat>
    var birthdays: map<UserId, Birthday>
    var photos: seq<Photo>
    var members: seq<Member>
    var states: map<UserId, Intent>
    var outbox: seq<Outbound>

    /** The primary key of `user_chats` holds. */
    ghost predicate Valid()
      reads this
    {
      KeysUnique(members)
    }

    /** The whole state as a value. */
    ghost function Snapshot(): World
      reads this
    {
      World(chats, birthdays, photos, members, states, outbox)
    }

    /** Empty tables, no pending intents, nothing sent. */
    constructor (cfg: Config)
      ensures this.cfg == cfg && Valid()
      ensures Snapshot() == World(map[], map[], [], [], map[], [])
    {
      this.cfg := cfg;
      chats, birthdays, photos, members, states, outbox := map[], map[], [], [], map[], [];
    }

    /** One gateway call: it goes through unless the chat is unreachable. */
    method Send(o: Outbound) returns (ok: bool)
      modifies this`outbox
      ensures ok == Reachable(cfg, o.chat)
      ensures outbox == old(outbox) + (if ok then [o] else [])
    {
      ok := o.chat !in cfg.unreachable;
      if ok {
        outbox := outbox + [o];
      }
    }

    // ---- chat registry and mailing ----

    /** `add_chat`. */
    method AddChat(id: ChatId, title: Option<string>, time: string)
      modifies this`chats
      ensures chats == InsertChat(old(chats), id, title, time)
    {
      if id !in chats {
        chats := chats[id := Chat(title, 1, time)];
      }
    }

    /** `get_chats_for_mailing`: the active chats whose stored time is `now`, in id order. */
    method GetChatsForMailing(now: string) returns (ids: seq<ChatId>)
      ensures ids == DueChats(chats, now)
      ensures StrictlyIncreasing(ids)
      ensures forall c :: c in ids <==> c in chats && chats[c].isActive == 1 && chats[c].mailingTime == now
    {
      ids := DueChats(chats, now);
    }

    /** `update_chat_mailing_time`. */
    method UpdateChatMailingTime(id: ChatId, time: string)
      modifies this`chats
      ensures chats == SetChatTime(old(chats), id, time)
    {
      if id in chats {
        chats := chats[id := chats[id].(mailingTime := time)];
      }
    }

    /** `morning_mailing` at clock reading `now` on day `today`, `pick` being the photo draw. */
    method MorningMailing(now: string, today: string, pick: nat)
      modifies this`outbox
      ensures Snapshot() == MorningMailingStep(old(Snapshot()), cfg, now, today, pick)
    {
      var photo := RandomPhoto(photos, pick);
      var due := GetChatsForMailing(now);
      if due != [] {
        DeliverAll(due, today, photo);
      }
    }

    /** The per-chat loop of `morning_mailing`: a chat whose send raises is skipped. */
    method DeliverAll(due: seq<ChatId>, today: string, photo: Option<string>)
      modifies this`outbox
      ensures outbox == old(outbox) + MailingLog(old(Snapshot()), cfg, due, today, photo)
    {
      ghost var w := Snapshot();
      var i := 0;
      while i < |due|
        invariant 0 <= i <= |due|
        invariant birthdays == w.birthdays && members == w.members
        invariant outbox == w.outbox + MailingLog(w, cfg, due[..i], today, photo)
      {
        var c := due[i];
        var names := Subjects(birthdays, members, c, today);
        var text := ComposeMessage(names);
        var ok := Send(Delivery(c, photo, text));
        MailingLogStep(w, cfg, due, i, today, photo);
        i := i + 1;
      }
      assert due[..i] == due;
    }

    /** `/set_mailing_time <chat_id> <HH:MM>`. */
    method SetMailingTime(m: Msg, fault: bool)
      modifies this`chats, this`outbox
      ensures Snapshot() == SetMailingTimeStep(old(Snapshot()), cfg, m, fault)
    {
      var ok;
      if m.from.id !in cfg.adminIds {
        ok := Send(Reply(m.chat, NoRights));
        return;
      }
      var parts := Words(m.text);
      if |parts| != 3 {
        ok := Send(Reply(m.chat, MailingUsage));
        return;
      }
      var id := ParseInt(parts[1]);
      if id.None? {
        ok := Send(Reply(m.chat, BadChatId));
        return;
      }
      var time := parts[2];
      if !ValidTime(time) {
        ok := Send(Reply(m.chat, BadTime));
        return;
      }
      if fault || !FitsSqlInteger(id.value) {
        ok := Send(Reply(m.chat, Failure));
        return;
      }
      UpdateChatMailingTime(id.value, time);
      ok := Send(Reply(m.chat, TimeSet(id.value, time)));
    }

    // ---- member directory ----

    /** `update_user_chat_info`: upsert keyed by (user id, chat id). */
    method UpdateUserChatInfo(chat: ChatId, user: UserId, username: Option<string>,
                              firstName: Option<string>, lastName: Option<string>)
      requires Valid()
      modifies this`members
      ensures Valid()
      ensures members == Upsert(old(members), Member(user, chat, username, firstName, lastName))
    {
      var rows := members;
      assert KeysUnique(rows);
      var rest := [];
      var i := 0;
      while i < |rows|
        invariant 0 <= i <= |rows|
        invariant rest == Without(rows[..i], user, chat)
      {
        assert rows[..i + 1] == rows[..i] + [rows[i]];
        WithoutAppend(rows[..i], rows[i], user, chat);
        if !HasKey(rows[i], user, chat) {
          rest := rest + [rows[i]];
        }
        i := i + 1;
      }
      assert rows[..i] == rows;
      var m := Member(user, chat, username, firstName, lastName);
      assert rest + [m] == Upsert(rows, m);
      members := rest + [m];
    }

    /** `update_chat_members`: refresh the directory from every active chat's administrators. */
    method UpdateChatMembers(roster: map<ChatId, seq<TgUser>>)
      requires Valid()
      modifies this`members
      ensures Valid()
      ensures Snapshot() == UpdateChatMembersStep(old(Snapshot()), cfg, roster)
    {
      var active := ActiveChats(chats);
      var i := 0;
      while i < |active|
        invariant 0 <= i <= |active|
        invariant Valid()
        invariant members == Refresh(old(members), cfg, roster, active[..i])
      {
        var c := active[i];
        assert active[..i + 1][..i] == active[..i];
        if c !in cfg.unreachable && c in roster {
          var admins := roster[c];
          ghost var before := members;
          var j := 0;
          while j < |admins|
            invariant 0 <= j <= |admins|
            invariant Valid()
            invariant members == UpsertAll(before, c, admins[..j])
          {
            var u := admins[j];
            assert admins[..j + 1][..j] == admins[..j];
            UpdateUserChatInfo(c, u.id, u.username, u.firstName, u.lastName);
            j := j + 1;
          }
          assert admins[..j] == admins;
        }
        i := i + 1;
      }
      assert active[..i] == active;
    }

    /** `handle_new_members`, with the bot's own arrival welcomed. */
    method HandleNewMembers(chat: ChatId, users: seq<TgUser>)
      requires Valid()
      modifies this`members, this`outbox
      ensures Valid()
      ensures Snapshot() == JoinStep(old(Snapshot()), cfg, chat, users)
    {
      var i := 0;
      while i < |users|
        invariant 0 <= i <= |users|
        invariant Valid()
        invariant JoinStep(Snapshot(), cfg, chat, users[i..]) == JoinStep(old(Snapshot()), cfg, chat, users)
      {
        var u := users[i];
        assert users[i..][0] == u && users[i..][1..] == users[i + 1..];
        if u.id == cfg.botId {
          var ok := Send(Reply(chat, Welcome));
          if !ok {
            return;
          }
        } else if !u.isBot {
          UpdateUserChatInfo(chat, u.id, u.username, u.firstName, u.lastName);
        }
        i := i + 1;
      }
    }

    /** `/admin_add_birthday @username <date>`. */
    method AdminAddBirthday(m: Msg, fault: bool)
      modifies this`birthdays, this`outbox
      ensures Snapshot() == AdminAddBirthdayStep(old(Snapshot()), cfg, m, fault)
    {
      var ok;
      if m.from.id !in cfg.adminIds {
        ok := Send(Reply(m.chat, NoRights));
        return;
      }
      var parts := Words(m.text);
      if |parts| != 3 {
        ok := Send(Reply(m.chat, BirthdayUsage));
        return;
      }
      var handle := StripAt(parts[1]);
      var parsed := ParseDate(cfg.dateFormat, parts[2]);
      if parsed.None? {
        ok := Send(Reply(m.chat, BadBirthdayDate));
        return;
      }
      var date := FormatDate(cfg.dateFormat, parsed.value);
      if fault {
        ok := Send(Reply(m.chat, Failure));
        return;
      }
      var user := Resolve(members, handle);
      if user.None? {
        ok := Send(Reply(m.chat, UserNotFound(handle)));
        return;
      }
      var saved := birthdays;
      birthdays := birthdays[user.value := Birthday(handle, Some(date))];
      ok := Send(Reply(m.chat, BirthdaySet(handle, date)));
      if !ok {
        // the reply raised inside the transaction, which rolls the write back
        birthdays := saved;
      }
    }

    // ---- conversation state machine ----

    /** `/set_birthday`. */
    method SetBirthday(m: Msg)
      modifies this`birthdays, this`states, this`outbox
      ensures Snapshot() == SetBirthdayStep(old(Snapshot()), cfg, m)
    {
      var user := m.from.id;
      birthdays := birthdays[user := Birthday(OrElse(m.from.username, NullName), None)];
      states := states[user := WaitingBirthday];
      var ok := Send(Reply(m.chat, DatePrompt));
    }

    /** `callback_message`. */
    method CallbackMessage(cb: Callback)
      modifies this`states, this`outbox
      ensures Snapshot() == CallbackStep(old(Snapshot()), cfg, cb)
    {
      if cb.data == AddBirthdayData {
        states := states[cb.from.id := WaitingBirthday];
        var ok := Send(Reply(cb.chat, DatePrompt));
      }
    }

    /** `/add_photo`. */
    method AddPhoto(m: Msg)
      modifies this`states, this`outbox
      ensures Snapshot() == AddPhotoStep(old(Snapshot()), cfg, m)
    {
      var ok;
      if m.from.id in cfg.adminIds {
        states := states[m.from.id := WaitingPhoto];
        ok := Send(Reply(m.chat, UploadPrompt));
      } else {
        ok := Send(Reply(m.chat, NoUploadRights));
      }
    }

    /** `/get_photo` (the source's `request_photo`). */
    method RequestPhoto(m: Msg)
      modifies this`states, this`outbox
      ensures Snapshot() == RequestPhotoStep(old(Snapshot()), cfg, m)
    {
      states := states[m.from.id := WaitingGetPhoto];
      var ok := Send(Reply(m.chat, CaptionPrompt));
    }

    /** `/cancel`. */
    method Cancel(m: Msg)
      modifies this`states, this`outbox
      ensures Snapshot() == CancelStep(old(Snapshot()), cfg, m)
    {
      var ok;
      if m.from.id in states {
        states := states - {m.from.id};
        ok := Send(Reply(m.chat, Cancelled));
      } else {
        ok := Send(Reply(m.chat, NothingToCancel));
      }
    }

    /** `form_birth`: the answer to a date prompt. */
    method FormBirth(m: Msg, fault: bool)
      modifies this`birthdays, this`states, this`outbox
      ensures Snapshot() == FormBirthStep(old(Snapshot()), cfg, m, fault)
    {
      var user := m.from.id;
      var parsed := ParseDate(cfg.dateFormat, m.text);
      var ok;
      if parsed.None? {
        ok := Send(Reply(m.chat, BadDateFormat));
        if ok {
          ok := Send(Reply(m.chat, TryAgain));
        }
      } else if fault {
        ok := Send(Reply(m.chat, Failure));
        if ok && user in states {
          states := states - {user};
        }
      } else {
        var formatted := FormatDate(cfg.dateFormat, parsed.value);
        if user in birthdays {
          birthdays := birthdays[user := birthdays[user].(date := Some(formatted))];
        }
        ok := Send(Reply(m.chat, DateSaved));
        if ok && user in states {
          states := states - {user};
        }
      }
    }

    /** `handle_photo`. */
    method HandlePhoto(p: PhotoMsg, fault: bool)
      modifies this`photos, this`states, this`outbox
      ensures Snapshot() == HandlePhotoStep(old(Snapshot()), cfg, p, fault)
    {
      var user := p.from.id;
      var ok;
      if user in states && states[user] == WaitingPhoto {
        if fault {
          ok := Send(Reply(p.chat, Failure));
          if ok {
            states := states - {user};
          }
        } else {
          photos := photos + [Photo(p.fileId, OrElse(p.caption, NoCaption))];
          ok := Send(Reply(p.chat, PhotoSaved));
          if ok {
            states := states - {user};
          }
        }
      } else if user in cfg.adminIds {
        ok := Send(Reply(p.chat, UseAddPhoto));
      } else {
        ok := Send(Reply(p.chat, PhotoRejected));
      }
    }

    /** `get_photo`: the answer to a caption prompt. */
    method GetPhoto(m: Msg, fault: bool)
      modifies this`states, this`outbox
      ensures Snapshot() == GetPhotoStep(old(Snapshot()), cfg, m, fault)
    {
      var ok;
      if m.text == "" {
        ok := Send(Reply(m.chat, CaptionRequired));
        return;
      }
      if fault {
        ok := Send(Reply(m.chat, Failure));
        return;
      }
      var found := PhotoByCaption(photos, m.text);
      if found.Some? {
        ok := Send(Picture(m.chat, found.value, FoundCaption));
        if ok && m.from.id in states {
          states := states - {m.from.id};
        }
      } else {
        ok := Send(Reply(m.chat, PhotoNotFound));
      }
    }

    /** `handle_all_messages`: the fallback for text messages. */
    method HandleAllMessages(m: Msg, fault: bool)
      modifies this`birthdays, this`states, this`outbox
      ensures Snapshot() == HandleAllStep(old(Snapshot()), cfg, m, fault)
    {
      var user := m.from.id;
      if !m.isPrivate && user !in states {
        return;
      }
      if user in states {
        match states[user]
        case WaitingBirthday =>
          FormBirth(m, fault);
        case WaitingPhoto =>
          var ok := Send(Reply(m.chat, ImageExpected));
        case WaitingGetPhoto =>
          GetPhoto(m, fault);
      }
    }
  }
}

=== FILE: clock.dfy ===
/**
  Calendar dates and clock readings in the fixed-width textual forms the bot
  stores and compares: `DD<sep>MM<sep>YYYY` for birthdays, `HH:MM` for the
  mailing time and `DD-MM` for "today".
*/
module Clock {
  import opened Text
  import opened Wrappers

  /** A `%d<sep>%m<sep>%Y` date format; the separator is configuration. */
  datatype DateFormat = DayMonthYear(sep: char)

  datatype Date = Date(day: nat, month: nat, year: nat)

  predicate IsLeap(year: nat) {
    year % 4 == 0 && (year % 100 != 0 || year % 400 == 0)
  }

  function DaysInMonth(month: nat, year: nat): nat {
    if month == 2 then (if IsLeap(year) then 29 else 28)
    else if month == 4 || month == 6 || month == 9 || month == 11 then 30
    else 31
  }

  /** A date `datetime` can represent. */
  predicate ValidDate(d: Date) {
    1 <= d.year <= 9999 && 1 <= d.month <= 12 && 1 <= d.day <= DaysInMonth(d.month, d.year)
  }

  function Pad2(n: nat): (r: string)
    requires n < 100
    ensures |r| == 2 && AllDigits(r)
  {
    [Digit(n / 10), Digit(n % 10)]
  }

  function Pad4(n: nat): (r: string)
    requires n < 10000
    ensures |r| == 4 && AllDigits(r)
  {
    [Digit(n / 1000), Digit(n / 100 % 10), Digit(n / 10 % 10), Digit(n % 10)]
  }

  lemma Pad2Value(n: nat)
    requires n < 100
    ensures DecimalValue(Pad2(n)) == n
  {
    DecimalOfTwo(Pad2(n));
  }

  /** The value of a two-digit string, spelled out. */
  lemma DecimalOfTwo(s: string)
    requires |s| == 2 && AllDigits(s)
    ensures DecimalValue(s) == DigitValue(s[0]) * 10 + DigitValue(s[1])
  {
    assert s[..1] == [s[0]];
    assert s[..1][..0] == [];
    assert DecimalValue(s[..1]) == DigitValue(s[0]);
  }

  lemma Pad2OfDigits(s: string)
    requires |s| == 2 && AllDigits(s)
    ensures DecimalValue(s) < 100 && Pad2(DecimalValue(s)) == s
  {
    DecimalOfTwo(s);
    var v := DecimalValue(s);
    assert Digit(DigitValue(s[0])) == s[0];
    assert Digit(DigitValue(s[1])) == s[1];
  }

  lemma Pad4Value(n: nat)
    requires n < 10000
    ensures DecimalValue(Pad4(n)) == n
  {
    DecimalOfFour(Pad4(n));
    assert n / 100 == n / 1000 * 10 + n / 100 % 10;
    assert n / 10 == n / 100 * 10 + n / 10 % 10;
    assert n == n / 10 * 10 + n % 10;
  }

  /** The value of a four-digit string, spelled out. */
  lemma DecimalOfFour(s: string)
    requires |s| == 4 && AllDigits(s)
    ensures DecimalValue(s) == ((DigitValue(s[0]) * 10 + DigitValue(s[1])) * 10 + DigitValue(s[2])) * 10 + DigitValue(s[3])
  {
    assert s[..3] == [s[0], s[1], s[2]];
    assert s[..3][..2] == [s[0], s[1]];
    assert s[..3][..2][..1] == [s[0]];
    assert s[..3][..2][..1][..0] == [];
    assert DecimalValue(s[..3][..2][..1]) == DigitValue(s[0]);
    assert DecimalValue(s[..3][..2]) == DigitValue(s[0]) * 10 + DigitValue(s[1]);
    assert DecimalValue(s[..3]) == (DigitValue(s[0]) * 10 + DigitValue(s[1])) * 10 + DigitValue(s[2]);
  }

  lemma Pad4OfDigits(s: string)
    requires |s| == 4 && AllDigits(s)
    ensures DecimalValue(s) < 10000 && Pad4(DecimalValue(s)) == s
  {
    DecimalOfFour(s);
    var a, b, c, d := DigitValue(s[0]), DigitValue(s[1]), DigitValue(s[2]), DigitValue(s[3]);
    var v := DecimalValue(s);
    assert v == ((a * 10 + b) * 10 + c) * 10 + d;
    assert v / 1000 == a;
    assert v / 100 % 10 == b;
    assert v / 10 % 10 == c;
    assert v % 10 == d;
    assert Digit(a) == s[0] && Digit(b) == s[1] && Digit(c) == s[2] && Digit(d) == s[3];
  }

  /** `date.strftime(fmt)`: zero-padded day, month and four-digit year. */
  function FormatDate(f: DateFormat, d: Date): (r: string)
    requires ValidDate(d)
    ensures |r| == 10 && r[2] == f.sep && r[5] == f.sep
  {
    Pad2(d.day) + [f.sep] + Pad2(d.month) + [f.sep] + Pad4(d.year)
  }

  /** `datetime.strptime(s, fmt)` for zero-padded fields; `None` stands for `ValueError`. */
  function ParseDate(f: DateFormat, s: string): (r: Option<Date>)
    ensures r.Some? ==> ValidDate(r.value)
    ensures r.Some? ==> |s| == 10 && s[2] == f.sep && s[5] == f.sep
  {
    if |s| == 10 && s[2] == f.sep && s[5] == f.sep
       && AllDigits(s[..2]) && AllDigits(s[3..5]) && AllDigits(s[6..]) then
      var d := Date(DecimalValue(s[..2]), DecimalValue(s[3..5]), DecimalValue(s[6..]));
      if ValidDate(d) then Some(d) else None
    else None
  }

  /** Re-parsing a formatted date yields the same date. */
  lemma ParseFormatDate(f: DateFormat, d: Date)
    requires ValidDate(d)
    ensures ParseDate(f, FormatDate(f, d)) == Some(d)
  {
    var s := FormatDate(f, d);
    assert s[..2] == Pad2(d.day);
    assert s[3..5] == Pad2(d.month);
    assert s[6..] == Pad4(d.year);
    Pad2Value(d.day);
    Pad2Value(d.month);
    Pad4Value(d.year);
  }

  /** Normalising an accepted date gives back the text that was typed. */
  lemma FormatParsedDate(f: DateFormat, s: string)
    requires ParseDate(f, s).Some?
    ensures FormatDate(f, ParseDate(f, s).value) == s
  {
    Pad2OfDigits(s[..2]);
    Pad2OfDigits(s[3..5]);
    Pad4OfDigits(s[6..]);
    assert s == s[..2] + [s[2]] + s[3..5] + [s[5]] + s[6..];
  }

  /** `datetime.now().strftime("%d-%m")`: the "today" key of the mailing. */
  function DayMonth(d: Date): (r: string)
    requires d.day < 100 && d.month < 100
    ensures |r| == 5 && r[2] == '-'
  {
    Pad2(d.day) + "-" + Pad2(d.month)
  }

  /** `datetime.strptime(t, "%H:%M")` for zero-padded fields. */
  predicate ValidTime(t: string)
    ensures ValidTime(t) ==> |t| == 5 && t[2] == ':' && AllDigits(t[..2]) && AllDigits(t[3..])
  {
    |t| == 5 && t[2] == ':' && AllDigits(t[..2]) && AllDigits(t[3..])
    && DecimalValue(t[..2]) < 24 && DecimalValue(t[3..]) < 60
  }

  /** `datetime.now().strftime("%H:%M")`: a clock reading to the minute. */
  function FormatTime(hour: nat, minute: nat): (r: string)
    requires hour < 24 && minute < 60
    ensures |r| == 5
  {
    Pad2(hour) + ":" + Pad2(minute)
  }

  /** The accepted mailing times are exactly the clock readings of a day. */
  lemma ValidTimeIsClockReading(t: string)
    ensures ValidTime(t) <==> exists h: nat, m: nat :: h < 24 && m < 60 && t == FormatTime(h, m)
  {
    forall h: nat, m: nat | h < 24 && m < 60
      ensures ValidTime(FormatTime(h, m))
    {
      var r := FormatTime(h, m);
      assert r[..2] == Pad2(h) && r[3..] == Pad2(m);
      Pad2Value(h);
      Pad2Value(m);
    }
    if ValidTime(t) {
      var h, m := DecimalValue(t[..2]), DecimalValue(t[3..]);
      Pad2OfDigits(t[..2]);
      Pad2OfDigits(t[3..]);
      assert t == t[..2] + ":" + t[3..];
      assert t == FormatTime(h, m);
    }
  }
}

=== FILE: conversation.dfy ===
/**
  The per-user conversation state machine over `user_states`: the commands
  that arm an intent, the handlers that consume the next message and either
  clear the intent or keep it, `/cancel`, and the fallback text handler that
  routes on the current intent.
*/
module Conversation {
  import opened Wrappers
  import opened Text
  import opened Clock
  import opened Gateway
  import opened Tables

  /** The data of the inline button that starts birthday entry. */
  const AddBirthdayData := "add_birthday"

  /** The `user` stored for a sender without a username. */
  const NullName := "Null"

  /** The caption of a photo sent back by caption lookup. */
  const FoundCaption := "Вот ваше фото!"

  /**
    `/set_birthday`: replaces the sender's birthday row by a stub with no date,
    arms `waiting_birthday` and asks for the date.
  */
  function SetBirthdayStep(w: World, cfg: Config, m: Msg): (w': World)
    ensures w'.states == w.states[m.from.id := WaitingBirthday]
    ensures m.from.id in w'.birthdays && w'.birthdays[m.from.id].date == None
    ensures w'.birthdays[m.from.id].user == (if m.from.username.Some? && m.from.username.value != "" then m.from.username.value else NullName)
    ensures forall u | u != m.from.id :: (u in w'.birthdays <==> u in w.birthdays) && (u in w.birthdays ==> w'.birthdays[u] == w.birthdays[u])
    ensures w'.chats == w.chats && w'.photos == w.photos && w'.members == w.members
    ensures w'.outbox == w.outbox + (if Reachable(cfg, m.chat) then [Reply(m.chat, DatePrompt)] else [])
  {
    var user := m.from.id;
    var w1 := w.(birthdays := w.birthdays[user := Birthday(OrElse(m.from.username, NullName), None)],
                 states := w.states[user := WaitingBirthday]);
    Emit(w1, cfg, Reply(m.chat, DatePrompt))
  }

  /** The `add_birthday` button: arms `waiting_birthday` without touching the table. */
  function CallbackStep(w: World, cfg: Config, cb: Callback): (w': World)
    ensures cb.data != AddBirthdayData ==> w' == w
    ensures cb.data == AddBirthdayData ==> w'.states == w.states[cb.from.id := WaitingBirthday]
    ensures cb.data == AddBirthdayData ==>
      w'.outbox == w.outbox + (if Reachable(cfg, cb.chat) then [Reply(cb.chat, DatePrompt)] else [])
    ensures w'.(states := w.states, outbox := w.outbox) == w
  {
    if cb.data == AddBirthdayData then
      Emit(w.(states := w.states[cb.from.id := WaitingBirthday]), cfg, Reply(cb.chat, DatePrompt))
    else w
  }

  /** `/add_photo`: arms `waiting_photo` for admins only. */
  function AddPhotoStep(w: World, cfg: Config, m: Msg): (w': World)
    ensures m.from.id in cfg.adminIds ==> w'.states == w.states[m.from.id := WaitingPhoto]
    ensures m.from.id !in cfg.adminIds ==> w'.states == w.states
    ensures w'.outbox == w.outbox +
      (if Reachable(cfg, m.chat) then [Reply(m.chat, if m.from.id in cfg.adminIds then UploadPrompt else NoUploadRights)] else [])
    ensures w'.(states := w.states, outbox := w.outbox) == w
  {
    if m.from.id in cfg.adminIds then
      Emit(w.(states := w.states[m.from.id := WaitingPhoto]), cfg, Reply(m.chat, UploadPrompt))
    else Emit(w, cfg, Reply(m.chat, NoUploadRights))
  }

  /** `/get_photo`: arms `waiting_get_photo`. */
  function RequestPhotoStep(w: World, cfg: Config, m: Msg): (w': World)
    ensures w'.states == w.states[m.from.id := WaitingGetPhoto]
    ensures w'.outbox == w.outbox + (if Reachable(cfg, m.chat) then [Reply(m.chat, CaptionPrompt)] else [])
    ensures w'.(states := w.states, outbox := w.outbox) == w
  {
    Emit(w.(states := w.states[m.from.id := WaitingGetPhoto]), cfg, Reply(m.chat, CaptionPrompt))
  }

  /** `/cancel`: drops the sender's intent if there is one. */
  function CancelStep(w: World, cfg: Config, m: Msg): (w': World)
    ensures m.from.id !in w'.states
    ensures forall u | u != m.from.id :: (u in w'.states <==> u in w.states) && (u in w.states ==> w'.states[u] == w.states[u])
    ensures w'.(states := w.states, outbox := w.outbox) == w
    ensures Reachable(cfg, m.chat) ==>
      w'.outbox == w.outbox + [Reply(m.chat, if m.from.id in w.states then Cancelled else NothingToCancel)]
    ensures !Reachable(cfg, m.chat) ==> w'.outbox == w.outbox
  {
    if m.from.id in w.states then
      Emit(w.(states := w.states - {m.from.id}), cfg, Reply(m.chat, Cancelled))
    else Emit(w, cfg, Reply(m.chat, NothingToCancel))
  }

  /**
    `form_birth`: a date that parses is stored in normalised form and the
    intent is cleared; a date that does not parse is re-prompted and the
    intent kept; a store failure clears the intent.
  */
  function FormBirthStep(w: World, cfg: Config, m: Msg, fault: bool): (w': World)
    ensures w'.chats == w.chats && w'.photos == w.photos && w'.members == w.members
    ensures ParseDate(cfg.dateFormat, m.text).None? ==> w'.states == w.states && w'.birthdays == w.birthdays
    ensures ParseDate(cfg.dateFormat, m.text).Some? && !fault ==> w'.birthdays == SetDate(w.birthdays, m.from.id, m.text)
    ensures ParseDate(cfg.dateFormat, m.text).Some? && fault ==> w'.birthdays == w.birthdays
    ensures ParseDate(cfg.dateFormat, m.text).Some? && Reachable(cfg, m.chat) ==> m.from.id !in w'.states
    ensures w'.states == w.states || w'.states == w.states - {m.from.id}
    ensures !Reachable(cfg, m.chat) ==> w'.states == w.states && w'.outbox == w.outbox
    ensures Reachable(cfg, m.chat) ==>
      w'.outbox == w.outbox +
        (if ParseDate(cfg.dateFormat, m.text).None? then [Reply(m.chat, BadDateFormat), Reply(m.chat, TryAgain)]
         else [Reply(m.chat, if fault then Failure else DateSaved)])
  {
    var user := m.from.id;
    match ParseDate(cfg.dateFormat, m.text)
    case None =>
      Emit(Emit(w, cfg, Reply(m.chat, BadDateFormat)), cfg, Reply(m.chat, TryAgain))
    case Some(d) =>
      if fault then EmitThenForget(w, cfg, Reply(m.chat, Failure), user)
      else
        var formatted := FormatDate(cfg.dateFormat, d);
        FormatParsedDate(cfg.dateFormat, m.text);
        EmitThenForget(w.(birthdays := SetDate(w.birthdays, user, formatted)), cfg, Reply(m.chat, DateSaved), user)
  }

  /**
    `handle_photo`: in `waiting_photo` the photo is stored with its caption (or
    the no-caption sentinel) and the intent cleared; otherwise nothing is
    stored and the intent is left alone.
  */
  function HandlePhotoStep(w: World, cfg: Config, p: PhotoMsg, fault: bool): (w': World)
    ensures w'.chats == w.chats && w'.birthdays == w.birthdays && w'.members == w.members
    ensures var waiting := p.from.id in w.states && w.states[p.from.id] == WaitingPhoto;
      && (waiting && !fault ==> w'.photos == w.photos + [Photo(p.fileId, OrElse(p.caption, NoCaption))])
      && (waiting && Reachable(cfg, p.chat) ==> w'.states == w.states - {p.from.id})
      && (!waiting || fault ==> w'.photos == w.photos)
      && (!waiting || !Reachable(cfg, p.chat) ==> w'.states == w.states)
      && w'.outbox == w.outbox + (if Reachable(cfg, p.chat) then
           [Reply(p.chat, if waiting then (if fault then Failure else PhotoSaved)
                          else if p.from.id in cfg.adminIds then UseAddPhoto else PhotoRejected)] else [])
  {
    var user := p.from.id;
    if user in w.states && w.states[user] == WaitingPhoto then
      if fault then EmitThenForget(w, cfg, Reply(p.chat, Failure), user)
      else
        var w1 := w.(photos := w.photos + [Photo(p.fileId, OrElse(p.caption, NoCaption))]);
        EmitThenForget(w1, cfg, Reply(p.chat, PhotoSaved), user)
    else if user in cfg.adminIds then Emit(w, cfg, Reply(p.chat, UseAddPhoto))
    else Emit(w, cfg, Reply(p.chat, PhotoRejected))
  }

  /**
    `get_photo`: a caption that matches a stored photo sends it back and clears
    the intent; an empty text, a miss or a store failure keeps the intent.
  */
  function GetPhotoStep(w: World, cfg: Config, m: Msg, fault: bool): (w': World)
    ensures w'.(states := w.states, outbox := w.outbox) == w
    ensures !Reachable(cfg, m.chat) ==> w' == w
    ensures var hit := m.text != "" && !fault && PhotoByCaption(w.photos, m.text).Some?;
      && (hit && Reachable(cfg, m.chat) ==>
            w'.states == w.states - {m.from.id}
            && w'.outbox == w.outbox + [Picture(m.chat, PhotoByCaption(w.photos, m.text).value, FoundCaption)])
      && (!hit ==> w'.states == w.states)
      && (!hit && Reachable(cfg, m.chat) ==>
            w'.outbox == w.outbox + [Reply(m.chat, if m.text == "" then CaptionRequired
                                                   else if fault then Failure else PhotoNotFound)])
  {
    if m.text == "" then Emit(w, cfg, Reply(m.chat, CaptionRequired))
    else if fault then Emit(w, cfg, Reply(m.chat, Failure))
    else match PhotoByCaption(w.photos, m.text)
      case Some(fileId) => EmitThenForget(w, cfg, Picture(m.chat, fileId, FoundCaption), m.from.id)
      case None => Emit(w, cfg, Reply(m.chat, PhotoNotFound))
  }

  /**
    `handle_all_messages`: a text from a user without an intent is ignored;
    otherwise it goes to the handler of the pending intent, and in
    `waiting_photo` the user is only asked for an image.
  */
  function HandleAllStep(w: World, cfg: Config, m: Msg, fault: bool): (w': World)
    ensures m.from.id !in w.states ==> w' == w
    ensures m.from.id in w.states && w.states[m.from.id] == WaitingPhoto ==>
      w' == w.(outbox := w.outbox + (if Reachable(cfg, m.chat) then [Reply(m.chat, ImageExpected)] else []))
    ensures m.from.id in w.states && w.states[m.from.id] == WaitingBirthday ==> w' == FormBirthStep(w, cfg, m, fault)
    ensures m.from.id in w.states && w.states[m.from.id] == WaitingGetPhoto ==> w' == GetPhotoStep(w, cfg, m, fault)
  {
    var user := m.from.id;
    if !m.isPrivate && user !in w.states then w
    else if user in w.states then
      match w.states[user]
      case WaitingBirthday => FormBirthStep(w, cfg, m, fault)
      case WaitingPhoto => Emit(w, cfg, Reply(m.chat, ImageExpected))
      case WaitingGetPhoto => GetPhotoStep(w, cfg, m, fault)
    else w
  }

  // ---- conversations ----

  /**
    `/set_birthday` followed by a valid date: the sender's row holds the date
    as typed (which re-parses to the same date), the intent is gone, and the
    last reply confirms.
  */
  lemma BirthdayEntry(w: World, cfg: Config, start: Msg, answer: Msg, d: Date)
    requires answer.from.id == start.from.id && answer.isPrivate
    requires Reachable(cfg, start.chat) && Reachable(cfg, answer.chat)
    requires ParseDate(cfg.dateFormat, answer.text) == Some(d)
    ensures var w' := HandleAllStep(SetBirthdayStep(w, cfg, start), cfg, answer, false);
      && w'.birthdays[start.from.id].date == Some(answer.text)
      && ParseDate(cfg.dateFormat, w'.birthdays[start.from.id].date.value) == Some(d)
      && start.from.id !in w'.states
      && w'.outbox[|w'.outbox| - 1] == Reply(answer.chat, DateSaved)
  {
    var w1 := SetBirthdayStep(w, cfg, start);
    assert w1.states[start.from.id] == WaitingBirthday;
  }

  /** Any number of unparsable answers leaves the user waiting for a date. */
  lemma BirthdayRetry(w: World, cfg: Config, answers: seq<Msg>, user: UserId)
    requires user in w.states && w.states[user] == WaitingBirthday
    requires forall i | 0 <= i < |answers| :: answers[i].from.id == user && ParseDate(cfg.dateFormat, answers[i].text).None?
    ensures var w' := Replay(w, cfg, answers); user in w'.states && w'.states[user] == WaitingBirthday && w'.birthdays == w.birthdays
    decreases |answers|
  {
    if answers != [] {
      BirthdayRetry(HandleAllStep(w, cfg, answers[0], false), cfg, answers[1..], user);
    }
  }

  /** Feeding a run of text messages to the fallback handler, in order. */
  function Replay(w: World, cfg: Config, msgs: seq<Msg>): World
    decreases |msgs|
  {
    if msgs == [] then w else Replay(HandleAllStep(w, cfg, msgs[0], false), cfg, msgs[1..])
  }

  /**
    The `add_birthday` button does not create the stub row `/set_birthday`
    creates, so for a user without a row a valid date is confirmed but not
    stored.
  */
  lemma ButtonWithoutStubStoresNothing(w: World, cfg: Config, cb: Callback, answer: Msg, d: Date)
    requires cb.data == AddBirthdayData && answer.from.id == cb.from.id && answer.isPrivate
    requires cb.from.id !in w.birthdays
    requires Reachable(cfg, answer.chat)
    requires ParseDate(cfg.dateFormat, answer.text) == Some(d)
    ensures var w' := HandleAllStep(CallbackStep(w, cfg, cb), cfg, answer, false);
      && cb.from.id !in w'.birthdays
      && cb.from.id !in w'.states
      && w'.outbox[|w'.outbox| - 1] == Reply(answer.chat, DateSaved)
  {
  }

  /** `/add_photo` by an admin followed by a photo stores it and clears the intent. */
  lemma UploadByAdmin(w: World, cfg: Config, cmd: Msg, p: PhotoMsg)
    requires cmd.from.id in cfg.adminIds && p.from.id == cmd.from.id
    requires Reachable(cfg, p.chat)
    ensures var w' := HandlePhotoStep(AddPhotoStep(w, cfg, cmd), cfg, p, false);
      && w'.photos == w.photos + [Photo(p.fileId, OrElse(p.caption, NoCaption))]
      && cmd.from.id !in w'.states
  {
  }

  /** `/add_photo` by anyone else arms nothing, so a following photo is not stored. */
  lemma UploadByNonAdmin(w: World, cfg: Config, cmd: Msg, p: PhotoMsg)
    requires cmd.from.id !in cfg.adminIds && p.from.id == cmd.from.id
    requires cmd.from.id !in w.states || w.states[cmd.from.id] != WaitingPhoto
    ensures var w' := HandlePhotoStep(AddPhotoStep(w, cfg, cmd), cfg, p, false);
      && w'.photos == w.photos && w'.states == w.states
  {
  }

  /**
    `/get_photo` followed by a caption that some stored photo carries: the
    earliest such photo is sent and the intent is cleared.
  */
  lemma LookupHit(w: World, cfg: Config, cmd: Msg, answer: Msg, i: nat)
    requires answer.from.id == cmd.from.id && answer.isPrivate
    requires Reachable(cfg, cmd.chat) && Reachable(cfg, answer.chat)
    requires i < |w.photos| && w.photos[i].caption == answer.text && answer.text != ""
    ensures var w' := HandleAllStep(RequestPhotoStep(w, cfg, cmd), cfg, answer, false);
      && cmd.from.id !in w'.states
      && w'.outbox[|w'.outbox| - 1] == Picture(answer.chat, PhotoByCaption(w.photos, answer.text).value, FoundCaption)
      && exists k | 0 <= k < |w.photos| :: w.photos[k].caption == answer.text
           && w.photos[k].fileId == w'.outbox[|w'.outbox| - 1].fileId
  {
    var w1 := RequestPhotoStep(w, cfg, cmd);
    assert w1.photos == w.photos;
    assert PhotoByCaption(w.photos, answer.text).Some?;
  }

  /** After `/cancel` the next text from the user is ignored. */
  lemma CancelThenIgnored(w: World, cfg: Config, cmd: Msg, next: Msg)
    requires next.from.id == cmd.from.id
    ensures var w1 := CancelStep(w, cfg, cmd); HandleAllStep(w1, cfg, next, false) == w1
  {
  }
}

=== FILE: directory.dfy ===
/**
  The member directory (`user_chats`) and the admin-assigned birthdays: the
  nightly refresh from each active chat's administrator list, the new-member
  event, and `/admin_add_birthday`, which resolves a handle through the
  directory.
*/
module Directory {
  import opened Wrappers
  import opened Text
  import opened Clock
  import opened Gateway
  import opened Tables
  import opened Mailing

  /** The `user_chats` row `update_user_chat_info` writes for user `u` seen in `chat`. */
  function MemberRow(chat: ChatId, u: TgUser): Member {
    Member(u.id, chat, u.username, u.firstName, u.lastName)
  }

  /** Upserting the rows of `users`, in order, for `chat`. */
  function UpsertAll(rows: seq<Member>, chat: ChatId, users: seq<TgUser>): (r: seq<Member>)
    ensures KeysUnique(rows) ==> KeysUnique(r)
    ensures forall u, c | c != chat :: Find(r, u, c) == Find(rows, u, c)
    ensures forall v | (forall i | 0 <= i < |users| :: users[i].id != v) :: Find(r, v, chat) == Find(rows, v, chat)
    decreases |users|
  {
    if users == [] then rows
    else
      var init := users[..|users| - 1];
      assert forall i | 0 <= i < |init| :: init[i] == users[i];
      Upsert(UpsertAll(rows, chat, init), MemberRow(chat, users[|users| - 1]))
  }

  /** No user after position `i` of `users` has the id of `users[i]`. */
  predicate LastOf(users: seq<TgUser>, i: nat)
    requires i < |users|
  {
    forall j | i < j < |users| :: users[j].id != users[i].id
  }

  /**
    After upserting `users` for `chat`, each of them has a row there, the one
    written for their last appearance; rows present before stay present.
  */
  lemma {:induction false} UpsertAllCovers(rows: seq<Member>, chat: ChatId, users: seq<TgUser>)
    ensures forall u | u in users :: InChat(UpsertAll(rows, chat, users), u.id, chat)
    ensures forall i | 0 <= i < |users| && LastOf(users, i) ::
      Find(UpsertAll(rows, chat, users), users[i].id, chat) == Some(MemberRow(chat, users[i]))
    ensures forall u, c | InChat(rows, u, c) :: InChat(UpsertAll(rows, chat, users), u, c)
    decreases |users|
  {
    if users != [] {
      var init := users[..|users| - 1];
      var last := users[|users| - 1];
      UpsertAllCovers(rows, chat, init);
      assert users == init + [last];
      forall i | 0 <= i < |users| && LastOf(users, i)
        ensures Find(UpsertAll(rows, chat, users), users[i].id, chat) == Some(MemberRow(chat, users[i]))
      {
        if i < |users| - 1 {
          assert users[i] == init[i];
          assert LastOf(init, i);
        }
      }
    }
  }

  /** Whether `get_chat_administrators(chat)` answers, and with which list. */
  predicate Answers(cfg: Config, roster: map<ChatId, seq<TgUser>>, chat: ChatId) {
    Reachable(cfg, chat) && chat in roster
  }

  /**
    `update_chat_members` over the chats `active`: each chat that answers has
    its administrators upserted; a chat that raises is skipped.
  */
  function Refresh(rows: seq<Member>, cfg: Config, roster: map<ChatId, seq<TgUser>>, active: seq<ChatId>): (r: seq<Member>)
    ensures KeysUnique(rows) ==> KeysUnique(r)
    decreases |active|
  {
    if active == [] then rows
    else
      var c := active[|active| - 1];
      var prev := Refresh(rows, cfg, roster, active[..|active| - 1]);
      if Answers(cfg, roster, c) then UpsertAll(prev, c, roster[c]) else prev
  }

  /**
    After the refresh every administrator of every chat that answered has a
    row for that chat, whatever happened to the chats before it, and rows
    already present stay present.
  */
  lemma {:induction false} RefreshCovers(rows: seq<Member>, cfg: Config, roster: map<ChatId, seq<TgUser>>, active: seq<ChatId>)
    ensures forall c, u | c in active && Answers(cfg, roster, c) && u in roster[c] ::
      InChat(Refresh(rows, cfg, roster, active), u.id, c)
    ensures forall c, i | c in active && Answers(cfg, roster, c) && 0 <= i < |roster[c]| && LastOf(roster[c], i) ::
      Find(Refresh(rows, cfg, roster, active), roster[c][i].id, c) == Some(MemberRow(c, roster[c][i]))
    ensures forall u, c | InChat(rows, u, c) :: InChat(Refresh(rows, cfg, roster, active), u, c)
    decreases |active|
  {
    if active != [] {
      var init := active[..|active| - 1];
      var c := active[|active| - 1];
      RefreshCovers(rows, cfg, roster, init);
      var prev := Refresh(rows, cfg, roster, init);
      if Answers(cfg, roster, c) {
        UpsertAllCovers(prev, c, roster[c]);
      }
      assert active == init + [c];
      forall d | d in active && d != c ensures d in init {
      }
    }
  }

  /** A user who is no administrator of an answering chat keeps that chat's row exactly as it was. */
  lemma {:induction false} RefreshFrame(rows: seq<Member>, cfg: Config, roster: map<ChatId, seq<TgUser>>,
                                        active: seq<ChatId>, c: ChatId, v: UserId)
    requires Answers(cfg, roster, c) ==> forall i | 0 <= i < |roster[c]| :: roster[c][i].id != v
    ensures Find(Refresh(rows, cfg, roster, active), v, c) == Find(rows, v, c)
    decreases |active|
  {
    if active != [] {
      RefreshFrame(rows, cfg, roster, active[..|active| - 1], c, v);
    }
  }

  /** A chat whose administrator list cannot be fetched keeps its rows exactly as they were. */
  lemma {:induction false} RefreshSkipsSilentChats(rows: seq<Member>, cfg: Config, roster: map<ChatId, seq<TgUser>>,
                                                   active: seq<ChatId>, chat: ChatId)
    requires !Answers(cfg, roster, chat)
    ensures forall u :: Find(Refresh(rows, cfg, roster, active), u, chat) == Find(rows, u, chat)
    decreases |active|
  {
    if active != [] {
      RefreshSkipsSilentChats(rows, cfg, roster, active[..|active| - 1], chat);
    }
  }

  /** The nightly job: `Refresh` over the active chats in table order. */
  function UpdateChatMembersStep(w: World, cfg: Config, roster: map<ChatId, seq<TgUser>>): (w': World)
    ensures w'.(members := w.members) == w
    ensures KeysUnique(w.members) ==> KeysUnique(w'.members)
  {
    w.(members := Refresh(w.members, cfg, roster, ActiveChats(w.chats)))
  }

  // ---- new members ----

  /**
    `handle_new_members` as written: bots are skipped before the check for the
    bot's own id, so the welcome branch can only run for a non-bot user whose
    id is the bot's.
  */
  function JoinAsWritten(w: World, cfg: Config, chat: ChatId, users: seq<TgUser>): (w': World)
    ensures w'.chats == w.chats && w'.birthdays == w.birthdays && w'.photos == w.photos && w'.states == w.states
    ensures KeysUnique(w.members) ==> KeysUnique(w'.members)
    ensures forall v, c | c != chat :: Find(w'.members, v, c) == Find(w.members, v, c)
    decreases |users|
  {
    if users == [] then w
    else
      var u := users[0];
      if !u.isBot then
        var w1 := w.(members := Upsert(w.members, MemberRow(chat, u)));
        if u.id == cfg.botId then
          if Reachable(cfg, chat) then JoinAsWritten(w1.(outbox := w1.outbox + [Reply(chat, Welcome)]), cfg, chat, users[1..])
          else w1
        else JoinAsWritten(w1, cfg, chat, users[1..])
      else JoinAsWritten(w, cfg, chat, users[1..])
  }

  /** Telegram reports the bot's own account as a bot, so the code as written never welcomes. */
  lemma {:induction false} JoinAsWrittenNeverWelcomes(w: World, cfg: Config, chat: ChatId, users: seq<TgUser>)
    requires forall i | 0 <= i < |users| :: users[i].id == cfg.botId ==> users[i].isBot
    ensures JoinAsWritten(w, cfg, chat, users).outbox == w.outbox
    decreases |users|
  {
    if users != [] {
      var w1 := if users[0].isBot then w else w.(members := Upsert(w.members, MemberRow(chat, users[0])));
      JoinAsWrittenNeverWelcomes(w1, cfg, chat, users[1..]);
    }
  }

  /** As written, a newcomer flagged as a bot gets no `user_chats` row. */
  lemma {:induction false} JoinAsWrittenSkipsBots(w: World, cfg: Config, chat: ChatId, users: seq<TgUser>, v: UserId)
    requires forall i | 0 <= i < |users| && users[i].id == v :: users[i].isBot
    ensures Find(JoinAsWritten(w, cfg, chat, users).members, v, chat) == Find(w.members, v, chat)
    decreases |users|
  {
    if users != [] {
      var u := users[0];
      forall i | 0 <= i < |users[1..]| && users[1..][i].id == v ensures users[1..][i].isBot {
        assert users[1..][i] == users[i + 1];
      }
      if u.isBot {
        JoinAsWrittenSkipsBots(w, cfg, chat, users[1..], v);
      } else {
        var w1 := w.(members := Upsert(w.members, MemberRow(chat, u)));
        if u.id != cfg.botId {
          JoinAsWrittenSkipsBots(w1, cfg, chat, users[1..], v);
        } else if Reachable(cfg, chat) {
          JoinAsWrittenSkipsBots(w1.(outbox := w1.outbox + [Reply(chat, Welcome)]), cfg, chat, users[1..], v);
        }
      }
    }
  }

  /**
    `handle_new_members` as intended: the bot's own arrival is welcomed, every
    other non-bot newcomer is recorded, and a welcome that raises ends the
    event.
  */
  function JoinStep(w: World, cfg: Config, chat: ChatId, users: seq<TgUser>): (w': World)
    ensures w'.chats == w.chats && w'.birthdays == w.birthdays && w'.photos == w.photos && w'.states == w.states
    ensures |w.outbox| <= |w'.outbox| && w'.outbox[..|w.outbox|] == w.outbox
    ensures forall i | |w.outbox| <= i < |w'.outbox| :: w'.outbox[i] == Reply(chat, Welcome)
    ensures KeysUnique(w.members) ==> KeysUnique(w'.members)
    ensures forall v, c | c != chat :: Find(w'.members, v, c) == Find(w.members, v, c)
    decreases |users|
  {
    if users == [] then w
    else
      var u := users[0];
      if u.id == cfg.botId then
        if Reachable(cfg, chat) then JoinStep(w.(outbox := w.outbox + [Reply(chat, Welcome)]), cfg, chat, users[1..])
        else w
      else if !u.isBot then JoinStep(w.(members := Upsert(w.members, MemberRow(chat, u))), cfg, chat, users[1..])
      else JoinStep(w, cfg, chat, users[1..])
  }

  /**
    With the chat reachable, the event is welcomed exactly when the bot is
    among the newcomers, and every non-bot newcomer ends up with a row.
  */
  lemma {:induction false} JoinWelcomesAndRecords(w: World, cfg: Config, chat: ChatId, users: seq<TgUser>)
    requires Reachable(cfg, chat)
    ensures var w' := JoinStep(w, cfg, chat, users);
      && (|w'.outbox| > |w.outbox| <==> exists i | 0 <= i < |users| :: users[i].id == cfg.botId)
      && (forall i | 0 <= i < |users| && !users[i].isBot && users[i].id != cfg.botId :: InChat(w'.members, users[i].id, chat))
      && (forall i | 0 <= i < |users| && !users[i].isBot && users[i].id != cfg.botId && LastOf(users, i) ::
            Find(w'.members, users[i].id, chat) == Some(MemberRow(chat, users[i])))
    decreases |users|
  {
    if users != [] {
      var u := users[0];
      var w1 := if u.id == cfg.botId then w.(outbox := w.outbox + [Reply(chat, Welcome)])
                else if !u.isBot then w.(members := Upsert(w.members, MemberRow(chat, u)))
                else w;
      JoinWelcomesAndRecords(w1, cfg, chat, users[1..]);
      JoinKeepsRows(w1, cfg, chat, users[1..]);
      assert forall i | 1 <= i < |users| :: users[i] == users[1..][i - 1];
      var w' := JoinStep(w, cfg, chat, users);
      forall i | 0 <= i < |users| && !users[i].isBot && users[i].id != cfg.botId && LastOf(users, i)
        ensures Find(w'.members, users[i].id, chat) == Some(MemberRow(chat, users[i]))
      {
        if i == 0 {
          JoinSkipsBots(w1, cfg, chat, users[1..], u.id);
        } else {
          assert LastOf(users[1..], i - 1);
        }
      }
      if exists i | 0 <= i < |users| :: users[i].id == cfg.botId {
        if u.id != cfg.botId {
          var i :| 0 <= i < |users| && users[i].id == cfg.botId;
          assert users[1..][i - 1].id == cfg.botId;
        }
      }
    }
  }

  /**
    A user every one of whose appearances among the newcomers is a bot (or the
    bot itself) keeps the row for `chat` exactly as it was.
  */
  lemma {:induction false} JoinSkipsBots(w: World, cfg: Config, chat: ChatId, users: seq<TgUser>, v: UserId)
    requires forall i | 0 <= i < |users| && users[i].id == v :: users[i].isBot || users[i].id == cfg.botId
    ensures Find(JoinStep(w, cfg, chat, users).members, v, chat) == Find(w.members, v, chat)
    decreases |users|
  {
    if users != [] {
      var u := users[0];
      forall i | 0 <= i < |users[1..]| && users[1..][i].id == v ensures users[1..][i].isBot || users[1..][i].id == cfg.botId {
        assert users[1..][i] == users[i + 1];
      }
      if u.id == cfg.botId {
        if Reachable(cfg, chat) {
          JoinSkipsBots(w.(outbox := w.outbox + [Reply(chat, Welcome)]), cfg, chat, users[1..], v);
        }
      } else if !u.isBot {
        JoinSkipsBots(w.(members := Upsert(w.members, MemberRow(chat, u))), cfg, chat, users[1..], v);
      } else {
        JoinSkipsBots(w, cfg, chat, users[1..], v);
      }
    }
  }

  /** Rows present before the event are present after it. */
  lemma {:induction false} JoinKeepsRows(w: World, cfg: Config, chat: ChatId, users: seq<TgUser>)
    ensures forall v, c | InChat(w.members, v, c) :: InChat(JoinStep(w, cfg, chat, users).members, v, c)
    decreases |users|
  {
    if users != [] {
      var u := users[0];
      var w1 := if u.id == cfg.botId then w.(outbox := w.outbox + [Reply(chat, Welcome)])
                else if !u.isBot then w.(members := Upsert(w.members, MemberRow(chat, u)))
                else w;
      JoinKeepsRows(w1, cfg, chat, users[1..]);
    }
  }

  // ---- admin-assigned birthdays ----

  /** The outcome of reading the arguments of `/admin_add_birthday @username <date>`. */
  datatype BirthdayArgs = BirthdayUsageArgs | BadDateArg | Assign(handle: string, date: Date)

  function ParseBirthdayArgs(f: DateFormat, text: string): (r: BirthdayArgs)
    ensures r.BirthdayUsageArgs? <==> |Words(text)| != 3
    ensures r.Assign? ==> |Words(text)| == 3 && r.handle == StripAt(Words(text)[1])
                          && ParseDate(f, Words(text)[2]) == Some(r.date)
    ensures r.BadDateArg? ==> ParseDate(f, Words(text)[2]).None?
    ensures r.Assign? ==> '@' !in r.handle && ValidDate(r.date)
  {
    var parts := Words(text);
    if |parts| != 3 then BirthdayUsageArgs
    else
      match ParseDate(f, parts[2])
      case None => BadDateArg
      case Some(d) => Assign(StripAt(parts[1]), d)
  }

  /** A command typed as `<command> @<handle> <date>` is accepted with that handle and date. */
  lemma ParseBirthdayArgsAccepts(f: DateFormat, command: string, handle: string, d: Date)
    requires command != [] && Free(command, IsSpace)
    requires handle != [] && Free(handle, IsSpace) && '@' !in handle
    requires ValidDate(d) && !IsSpace(f.sep)
    ensures ParseBirthdayArgs(f, Unwords([command, "@" + handle, FormatDate(f, d)])) == Assign(handle, d)
  {
    var date := FormatDate(f, d);
    assert Free("@" + handle, IsSpace) by {
      forall k | 0 < k < |"@" + handle| ensures !IsSpace(("@" + handle)[k]) {
        assert ("@" + handle)[k] == handle[k - 1];
      }
    }
    assert Free(date, IsSpace) by {
      forall k | 0 <= k < |date| ensures !IsSpace(date[k]) {
        assert date == Pad2(d.day) + [f.sep] + Pad2(d.month) + [f.sep] + Pad4(d.year);
        if k != 2 && k != 5 {
          assert IsDigit(date[k]);
        }
      }
    }
    WordsOfUnwords([command, "@" + handle, date]);
    ParseFormatDate(f, d);
    assert StripAt("@" + handle) == StripAt(handle) by {
      assert ("@" + handle)[1..] == handle;
    }
  }

  /**
    `/admin_add_birthday`: admins only; the arguments are checked, the handle
    (with every '@' removed) is resolved through the directory, and only then
    is the resolved user's birthday row replaced by the handle and the
    normalised date. The write and the confirmation share one database
    transaction, so a confirmation that cannot be sent undoes the write.
  */
  function AdminAddBirthdayStep(w: World, cfg: Config, m: Msg, fault: bool): (w': World)
    ensures w'.(birthdays := w.birthdays, outbox := w.outbox) == w
    ensures w'.birthdays != w.birthdays ==>
      m.from.id in cfg.adminIds && !fault && ParseBirthdayArgs(cfg.dateFormat, m.text).Assign?
      && Resolve(w.members, ParseBirthdayArgs(cfg.dateFormat, m.text).handle).Some? && Reachable(cfg, m.chat)
    ensures var a := ParseBirthdayArgs(cfg.dateFormat, m.text);
      m.from.id in cfg.adminIds && !fault && a.Assign? && Resolve(w.members, a.handle).Some? && Reachable(cfg, m.chat) ==>
        w'.birthdays == w.birthdays[Resolve(w.members, a.handle).value :=
                                      Birthday(a.handle, Some(FormatDate(cfg.dateFormat, a.date)))]
    ensures !Reachable(cfg, m.chat) ==> w' == w
    ensures var parts := Words(m.text);
      Reachable(cfg, m.chat) ==>
        w'.outbox == w.outbox + [Reply(m.chat,
          if m.from.id !in cfg.adminIds then NoRights
          else if |parts| != 3 then BirthdayUsage
          else if ParseDate(cfg.dateFormat, parts[2]).None? then BadBirthdayDate
          else if fault then Failure
          else if Resolve(w.members, StripAt(parts[1])).None? then UserNotFound(StripAt(parts[1]))
          else BirthdaySet(StripAt(parts[1]), FormatDate(cfg.dateFormat, ParseDate(cfg.dateFormat, parts[2]).value)))]
  {
    if m.from.id !in cfg.adminIds then Emit(w, cfg, Reply(m.chat, NoRights))
    else match ParseBirthdayArgs(cfg.dateFormat, m.text)
      case BirthdayUsageArgs => Emit(w, cfg, Reply(m.chat, BirthdayUsage))
      case BadDateArg => Emit(w, cfg, Reply(m.chat, BadBirthdayDate))
      case Assign(handle, d) =>
        if fault then Emit(w, cfg, Reply(m.chat, Failure))
        else match Resolve(w.members, handle)
          case None => Emit(w, cfg, Reply(m.chat, UserNotFound(handle)))
          case Some(user) =>
            var date := FormatDate(cfg.dateFormat, d);
            // the write and the reply share one transaction: a reply that raises rolls the write back
            if Reachable(cfg, m.chat) then
              Emit(w.(birthdays := w.birthdays[user := Birthday(handle, Some(date))]), cfg,
                   Reply(m.chat, BirthdaySet(handle, date)))
            else w
  }

  /**
    A birthday assigned by an admin to a member of `chat` is celebrated in that
    chat on the day, by its handle, provided the date format separates with
    '-' (with any other separator `StoredDateMatches` shows the stored date
    never matches).
  */
  lemma AssignedBirthdayCelebrated(w: World, cfg: Config, m: Msg, handle: string, d: Date, chat: ChatId, now: Date)
    requires m.from.id in cfg.adminIds && Reachable(cfg, m.chat)
    requires ParseBirthdayArgs(cfg.dateFormat, m.text) == Assign(handle, d)
    requires Resolve(w.members, handle).Some? && InChat(w.members, Resolve(w.members, handle).value, chat)
    requires ValidDate(now) && now.day == d.day && now.month == d.month
    ensures var w' := AdminAddBirthdayStep(w, cfg, m, false);
      handle in Subjects(w'.birthdays, w'.members, chat, DayMonth(now)) <== cfg.dateFormat.sep == '-'
  {
    var user := Resolve(w.members, handle).value;
    var w' := AdminAddBirthdayStep(w, cfg, m, false);
    StoredDateMatches(cfg.dateFormat, d, now);
    if cfg.dateFormat.sep == '-' {
      assert Celebrates(w'.birthdays, w'.members, chat, DayMonth(now), user);
    }
  }
}

=== FILE: gateway.dfy ===
/**
  The channel gateway as seen by the core: everything the bot sends is an
  entry of an outbound log. The wording of the fixed replies is not modelled,
  only which reply it is.
*/
module Gateway {

  /** The fixed replies of the command handlers. */
  datatype ReplyKind =
    | DatePrompt | DateSaved | BadDateFormat | TryAgain | Failure
    | CaptionPrompt | CaptionRequired | PhotoNotFound
    | UploadPrompt | NoUploadRights | PhotoSaved | UseAddPhoto | PhotoRejected | ImageExpected
    | Cancelled | NothingToCancel
    | NoRights | MailingUsage | BadChatId | BadTime | TimeSet(id: int, time: string)
    | BirthdayUsage | BadBirthdayDate | UserNotFound(handle: string) | BirthdaySet(handle: string, date: string)
    | Welcome

  /** One call of `send_message`, `send_photo` or `reply_to` addressed to `chat`. */
  datatype Outbound =
    | Message(chat: int, text: string)
    | Picture(chat: int, fileId: string, caption: string)
    | Reply(chat: int, kind: ReplyKind)
}

=== FILE: mailing.dfy ===
/**
  The chat registry and the morning mailing: which chats are due at a clock
  reading, who celebrates today in a chat, the text sent to it, and the
  delivery log of one tick. Also the admin command that moves a chat's
  mailing time.
*/
module Mailing {
  import opened Wrappers
  import opened Text
  import opened Clock
  import opened Gateway
  import opened Tables

  const Greeting := "Доброе утро!"
  const HeaderLine := "Сегодня день рождения у:"
  const Header := HeaderLine + "\n"
  const Closing := "Поздравляем!"

  // ---- registry ----

  /** Registering a chat twice keeps the first registration. */
  lemma AddChatIdempotent(chats: map<ChatId, Chat>, id: ChatId, t1: Option<string>, m1: string,
                          t2: Option<string>, m2: string)
    ensures InsertChat(InsertChat(chats, id, t1, m1), id, t2, m2) == InsertChat(chats, id, t1, m1)
    ensures id in chats ==> InsertChat(chats, id, t2, m2) == chats
  {
  }

  /** A newly registered chat is active and due exactly at the default time. */
  lemma NewChatDueAtDefault(chats: map<ChatId, Chat>, id: ChatId, title: Option<string>, now: string)
    requires id !in chats
    ensures InsertChat(chats, id, title, DefaultMailingTime)[id] == Chat(title, 1, "09:00")
    ensures id in DueChats(InsertChat(chats, id, title, DefaultMailingTime), now) <==> now == "09:00"
    ensures forall c | c != id :: c in DueChats(InsertChat(chats, id, title, DefaultMailingTime), now) <==> c in DueChats(chats, now)
  {
  }

  /** After a time change a chat is due at the new time only; other chats keep their schedule. */
  lemma SetChatTimeSchedule(chats: map<ChatId, Chat>, id: ChatId, time: string, now: string)
    requires id in chats && chats[id].isActive == 1
    ensures id in DueChats(SetChatTime(chats, id, time), now) <==> now == time
    ensures forall c | c != id :: c in DueChats(SetChatTime(chats, id, time), now) <==> c in DueChats(chats, now)
  {
  }

  /** The outcome of reading the arguments of `/set_mailing_time <chat_id> <HH:MM>`. */
  datatype TimeArgs = TimeUsage | BadId | BadClock | SetTime(id: ChatId, time: string)

  function ParseTimeArgs(text: string): (r: TimeArgs)
    ensures r.TimeUsage? <==> |Words(text)| != 3
    ensures r.BadId? <==> |Words(text)| == 3 && ParseInt(Words(text)[1]).None?
    ensures r.BadClock? <==> |Words(text)| == 3 && ParseInt(Words(text)[1]).Some? && !ValidTime(Words(text)[2])
    ensures r.SetTime? <==> |Words(text)| == 3 && ParseInt(Words(text)[1]).Some? && ValidTime(Words(text)[2])
    ensures r.SetTime? ==> |Words(text)| == 3 && ParseInt(Words(text)[1]) == Some(r.id)
                           && r.time == Words(text)[2] && ValidTime(r.time)
  {
    var parts := Words(text);
    if |parts| != 3 then TimeUsage
    else match ParseInt(parts[1])
      case None => BadId
      case Some(id) => if ValidTime(parts[2]) then SetTime(id, parts[2]) else BadClock
  }

  /** A command typed as `<command> <chat id> <clock reading>` is accepted with exactly those values. */
  lemma ParseTimeArgsAccepts(command: string, id: ChatId, hour: nat, minute: nat)
    requires command != [] && Free(command, IsSpace)
    requires hour < 24 && minute < 60
    ensures ParseTimeArgs(Unwords([command, ShowInt(id), FormatTime(hour, minute)]))
         == SetTime(id, FormatTime(hour, minute))
  {
    var ws := [command, ShowInt(id), FormatTime(hour, minute)];
    FreeOfShowInt(id);
    FreeOfClockReading(hour, minute);
    WordsOfUnwords(ws);
    ParseShowInt(id);
    ValidTimeIsClockReading(FormatTime(hour, minute));
  }

  lemma FreeOfShowInt(i: int)
    ensures ShowInt(i) != [] && Free(ShowInt(i), IsSpace)
  {
    var s := ShowInt(i);
    forall k | 0 <= k < |s| ensures !IsSpace(s[k]) {
      if i < 0 && k > 0 {
        assert s[k] == ShowNat(-i)[k - 1];
      }
    }
  }

  lemma FreeOfClockReading(hour: nat, minute: nat)
    requires hour < 24 && minute < 60
    ensures FormatTime(hour, minute) != [] && Free(FormatTime(hour, minute), IsSpace)
  {
  }

  /**
    `/set_mailing_time`: admins only; the arguments are checked before the
    single-row update, and the stored time is the argument as typed.
  */
  function SetMailingTimeStep(w: World, cfg: Config, m: Msg, fault: bool): (w': World)
    ensures w'.(chats := w.chats, outbox := w.outbox) == w
    ensures w'.chats != w.chats ==>
      m.from.id in cfg.adminIds && !fault && ParseTimeArgs(m.text).SetTime? && FitsSqlInteger(ParseTimeArgs(m.text).id)
    ensures m.from.id in cfg.adminIds && !fault && ParseTimeArgs(m.text).SetTime? && FitsSqlInteger(ParseTimeArgs(m.text).id) ==>
      w'.chats == SetChatTime(w.chats, ParseTimeArgs(m.text).id, ParseTimeArgs(m.text).time)
    ensures !Reachable(cfg, m.chat) ==> w'.outbox == w.outbox
    ensures var parts := Words(m.text);
      Reachable(cfg, m.chat) ==>
        w'.outbox == w.outbox + [Reply(m.chat,
          if m.from.id !in cfg.adminIds then NoRights
          else if |parts| != 3 then MailingUsage
          else if ParseInt(parts[1]).None? then BadChatId
          else if !ValidTime(parts[2]) then BadTime
          else if fault || !FitsSqlInteger(ParseInt(parts[1]).value) then Failure
          else TimeSet(ParseInt(parts[1]).value, parts[2]))]
  {
    if m.from.id !in cfg.adminIds then Emit(w, cfg, Reply(m.chat, NoRights))
    else match ParseTimeArgs(m.text)
      case TimeUsage => Emit(w, cfg, Reply(m.chat, MailingUsage))
      case BadId => Emit(w, cfg, Reply(m.chat, BadChatId))
      case BadClock => Emit(w, cfg, Reply(m.chat, BadTime))
      case SetTime(id, time) =>
        // an id beyond 64 bits makes the UPDATE raise, which the outer handler reports
        if fault || !FitsSqlInteger(id) then Emit(w, cfg, Reply(m.chat, Failure))
        else Emit(w.(chats := SetChatTime(w.chats, id, time)), cfg, Reply(m.chat, TimeSet(id, time)))
  }

  // ---- who celebrates ----

  /** User `u` has a birthday row dated today and a `user_chats` row for `chat`. */
  predicate Celebrates(birthdays: map<UserId, Birthday>, members: seq<Member>, chat: ChatId,
                       today: string, u: UserId)
  {
    u in birthdays && IsBirthdayToday(birthdays[u].date, today) && InChat(members, u, chat)
  }

  /** The `user` column of the joined rows, visiting user ids in the order of `ids`. */
  function Candidates(birthdays: map<UserId, Birthday>, members: seq<Member>, chat: ChatId,
                      today: string, ids: seq<UserId>): (r: seq<string>)
    ensures forall n :: n in r <==>
      exists u | u in ids :: Celebrates(birthdays, members, chat, today, u) && birthdays[u].user == n
    decreases |ids|
  {
    if ids == [] then []
    else
      var init := ids[..|ids| - 1];
      var u := ids[|ids| - 1];
      assert ids == init + [u];
      var prev := Candidates(birthdays, members, chat, today, init);
      if Celebrates(birthdays, members, chat, today, u) then prev + [birthdays[u].user] else prev
  }

  predicate NoDuplicates(s: seq<string>) {
    forall i, j | 0 <= i < j < |s| :: s[i] != s[j]
  }

  /** `SELECT DISTINCT`: the first occurrence of every value, in order. */
  function Distinct(xs: seq<string>): (r: seq<string>)
    ensures NoDuplicates(r)
    ensures forall x :: x in r <==> x in xs
    decreases |xs|
  {
    if xs == [] then []
    else
      var init := xs[..|xs| - 1];
      var x := xs[|xs| - 1];
      assert xs == init + [x];
      var prev := Distinct(init);
      if x in prev then prev else prev + [x]
  }

  /**
    The mailing query of one chat: the distinct `birthdays.user` values whose
    date starts with today's `DD-MM` and whose user has a row for the chat.
  */
  function Subjects(birthdays: map<UserId, Birthday>, members: seq<Member>, chat: ChatId,
                    today: string): (r: seq<string>)
    ensures NoDuplicates(r)
    ensures forall n :: n in r <==>
      exists u :: Celebrates(birthdays, members, chat, today, u) && birthdays[u].user == n
  {
    var ids := Ascending(birthdays.Keys);
    var r := Distinct(Candidates(birthdays, members, chat, today, ids));
    assert forall u :: Celebrates(birthdays, members, chat, today, u) ==> u in ids;
    r
  }

  /**
    A stored normalised date matches a `%d-%m` reading of the clock exactly
    when the date format separates with '-' and day and month agree; with any
    other separator no stored date is ever celebrated.
  */
  lemma StoredDateMatches(f: DateFormat, birth: Date, now: Date)
    requires ValidDate(birth) && ValidDate(now)
    ensures IsBirthdayToday(Some(FormatDate(f, birth)), DayMonth(now))
        <==> f.sep == '-' && birth.day == now.day && birth.month == now.month
  {
    var s, t := FormatDate(f, birth), DayMonth(now);
    assert Prefix5(s) == s[..5];
    assert s[..5] == Pad2(birth.day) + [f.sep] + Pad2(birth.month);
    if Prefix5(s) == t {
      assert s[..2] == t[..2] && s[3..5] == t[3..5];
      assert s[..2] == Pad2(birth.day) && t[..2] == Pad2(now.day);
      assert s[3..5] == Pad2(birth.month) && t[3..5] == Pad2(now.month);
      Pad2Value(birth.day);
      Pad2Value(now.day);
      Pad2Value(birth.month);
      Pad2Value(now.month);
    }
  }

  // ---- composing ----

  /** The `@name\n` lines appended for `names`, in order. */
  function Mentions(names: seq<string>): (r: string)
    ensures names != [] ==> |r| > 0
    decreases |names|
  {
    if names == [] then "" else Mentions(names[..|names| - 1]) + "@" + names[|names| - 1] + "\n"
  }

  /** The body of the morning message for a chat whose celebrants are `names`. */
  function Compose(names: seq<string>): (r: string)
    ensures names == [] ==> r == Greeting
    ensures names != [] ==> |r| > |Header| + |Closing| && r[..|Header|] == Header && r[|r| - |Closing|..] == Closing
  {
    if names == [] then Greeting
    else
      var m := Mentions(names);
      assert m != [];
      var r := Header + m + Closing;
      assert r[..|Header|] == Header;
      assert r[|r| - |Closing|..] == Closing;
      r
  }

  /** Builds the message the way the mailing job does, one `+=` per name. */
  method ComposeMessage(names: seq<string>) returns (message: string)
    ensures message == Compose(names)
  {
    if names != [] {
      message := Header;
      var i := 0;
      while i < |names|
        invariant 0 <= i <= |names|
        invariant message == Header + Mentions(names[..i])
      {
        assert names[..i + 1][..i] == names[..i];
        message := message + "@" + names[i] + "\n";
        i := i + 1;
      }
      assert names[..i] == names;
      message := message + Closing;
    } else {
      message := Greeting;
    }
  }

  /** The lines `@name`, one per name. */
  function MentionLines(names: seq<string>): (r: seq<string>)
    ensures |r| == |names|
  {
    seq(|names|, i requires 0 <= i < |names| => "@" + names[i])
  }

  lemma {:induction false} MentionsFront(names: seq<string>)
    requires names != []
    ensures Mentions(names) == "@" + names[0] + "\n" + Mentions(names[1..])
    decreases |names|
  {
    if |names| > 1 {
      var init := names[..|names| - 1];
      MentionsFront(init);
      assert init[1..] == names[1..][..|names[1..]| - 1];
      assert init[0] == names[0];
    }
  }

  lemma MentionLineFree(name: string)
    requires Free(name, IsNewline)
    ensures Free("@" + name, IsNewline)
  {
    var a := "@" + name;
    forall k | 0 < k < |a| ensures !IsNewline(a[k]) {
      assert a[k] == name[k - 1];
    }
  }

  lemma {:induction false} LinesOfMentions(names: seq<string>, tail: string)
    requires forall i | 0 <= i < |names| :: Free(names[i], IsNewline)
    ensures Lines(Mentions(names) + tail) == MentionLines(names) + Lines(tail)
    decreases |names|
  {
    if names == [] {
      assert Mentions(names) + tail == tail;
    } else {
      var a := "@" + names[0];
      var rest := Mentions(names[1..]) + tail;
      calc {
        Lines(Mentions(names) + tail);
        { MentionsFront(names);
          assert Mentions(names) == a + "\n" + Mentions(names[1..]);
          assert Mentions(names) + tail == a + "\n" + rest; }
        Lines(a + "\n" + rest);
        { MentionLineFree(names[0]); LinesCons(a, rest); }
        [a] + Lines(rest);
        { LinesOfMentions(names[1..], tail); }
        [a] + (MentionLines(names[1..]) + Lines(tail));
        { assert MentionLines(names) == [a] + MentionLines(names[1..]); }
        MentionLines(names) + Lines(tail);
      }
    }
  }

  /**
    The composed text read line by line: the greeting alone when nobody
    celebrates, otherwise the header, one `@name` line per celebrant in order,
    and the closing line.
  */
  lemma ComposeLines(names: seq<string>)
    requires forall i | 0 <= i < |names| :: Free(names[i], IsNewline)
    ensures Lines(Compose(names)) ==
      if names == [] then [Greeting] else [HeaderLine] + MentionLines(names) + [Closing]
  {
    FixedLinesFree();
    if names == [] {
      LinesOfLine(Greeting);
    } else {
      var mentions := Mentions(names);
      var body := mentions + Closing;
      assert Compose(names) == HeaderLine + "\n" + body by {
        assert Compose(names) == (HeaderLine + "\n") + mentions + Closing;
      }
      LinesCons(HeaderLine, body);
      LinesOfMentions(names, Closing);
      LinesOfLine(Closing);
      assert Lines(body) == MentionLines(names) + [Closing];
    }
  }

  /** The fixed lines of the mailing text hold no line break. */
  lemma FixedLinesFree()
    ensures Free(Greeting, IsNewline) && Free(HeaderLine, IsNewline) && Free(Closing, IsNewline)
  {
  }

  // ---- one tick ----

  /** `send_photo` with the text as caption when a photo was drawn, `send_message` otherwise. */
  function Delivery(chat: ChatId, photo: Option<string>, text: string): (r: Outbound)
    ensures r.chat == chat
    ensures r.Picture? <==> photo.Some? && photo.value != ""
    ensures r.Picture? ==> r.fileId == photo.value && r.caption == text
    ensures !r.Picture? ==> r == Message(chat, text)
  {
    if photo.Some? && photo.value != "" then Picture(chat, photo.value, text) else Message(chat, text)
  }

  /** The deliveries of one tick to the chats `due`; a chat whose send raises is skipped. */
  function MailingLog(w: World, cfg: Config, due: seq<ChatId>, today: string, photo: Option<string>): (r: seq<Outbound>)
    ensures |r| <= |due|
    ensures due == [] ==> r == []
    decreases |due|
  {
    if due == [] then []
    else
      var c := due[|due| - 1];
      MailingLog(w, cfg, due[..|due| - 1], today, photo)
      + (if Reachable(cfg, c) then [Delivery(c, photo, Compose(Subjects(w.birthdays, w.members, c, today)))] else [])
  }

  /** The log of the first `i + 1` due chats extends the log of the first `i` by chat `i`'s delivery, if any. */
  lemma MailingLogStep(w: World, cfg: Config, due: seq<ChatId>, i: nat, today: string, photo: Option<string>)
    requires i < |due|
    ensures MailingLog(w, cfg, due[..i + 1], today, photo)
      == MailingLog(w, cfg, due[..i], today, photo)
         + (if Reachable(cfg, due[i])
            then [Delivery(due[i], photo, Compose(Subjects(w.birthdays, w.members, due[i], today)))] else [])
  {
    assert due[..i + 1][..i] == due[..i];
  }

  /**
    `morning_mailing` at clock reading `now` (`HH:MM`) on day `today`
    (`DD-MM`), with `pick` the random draw of the photo query.
  */
  function MorningMailingStep(w: World, cfg: Config, now: string, today: string, pick: nat): (w': World)
    ensures w'.(outbox := w.outbox) == w
    ensures DueChats(w.chats, now) == [] ==> w' == w
  {
    var photo := RandomPhoto(w.photos, pick);
    var due := DueChats(w.chats, now);
    if due == [] then w else w.(outbox := w.outbox + MailingLog(w, cfg, due, today, photo))
  }

  /** How many entries of `log` are addressed to `chat`. */
  function Addressed(log: seq<Outbound>, chat: ChatId): nat
    decreases |log|
  {
    if log == [] then 0
    else Addressed(log[..|log| - 1], chat) + (if log[|log| - 1].chat == chat then 1 else 0)
  }

  lemma {:induction false} AddressedAppend(a: seq<Outbound>, b: seq<Outbound>, chat: ChatId)
    ensures Addressed(a + b, chat) == Addressed(a, chat) + Addressed(b, chat)
    decreases |b|
  {
    if b != [] {
      assert (a + b)[..|a + b| - 1] == a + b[..|b| - 1];
      AddressedAppend(a, b[..|b| - 1], chat);
    } else {
      assert a + b == a;
    }
  }

  /**
    Every entry of the log goes to a due, reachable chat, carries that chat's
    composed text, and uses the photo drawn once for the whole tick.
  */
  lemma {:induction false} MailingLogEntries(w: World, cfg: Config, due: seq<ChatId>, today: string, photo: Option<string>)
    ensures forall o | o in MailingLog(w, cfg, due, today, photo) ::
      o.chat in due && Reachable(cfg, o.chat)
      && o == Delivery(o.chat, photo, Compose(Subjects(w.birthdays, w.members, o.chat, today)))
    decreases |due|
  {
    if due != [] {
      MailingLogEntries(w, cfg, due[..|due| - 1], today, photo);
      assert forall c | c in due[..|due| - 1] :: c in due;
    }
  }

  /** With distinct due chats, each reachable due chat gets exactly one delivery and no other chat any. */
  lemma {:induction false} MailingLogOnce(w: World, cfg: Config, due: seq<ChatId>, today: string,
                                          photo: Option<string>, chat: ChatId)
    requires StrictlyIncreasing(due)
    ensures Addressed(MailingLog(w, cfg, due, today, photo), chat) ==
      if chat in due && Reachable(cfg, chat) then 1 else 0
    decreases |due|
  {
    if due != [] {
      var init := due[..|due| - 1];
      var c := due[|due| - 1];
      assert due == init + [c];
      MailingLogOnce(w, cfg, init, today, photo, chat);
      var last := if Reachable(cfg, c) then [Delivery(c, photo, Compose(Subjects(w.birthdays, w.members, c, today)))] else [];
      AddressedAppend(MailingLog(w, cfg, init, today, photo), last, chat);
      if Reachable(cfg, c) {
        assert last[..0] == [];
      }
      assert c !in init;
    }
  }

  /**
    One tick of the dispatch loop: a chat receives exactly one delivery when it
    is active, its stored time equals `now` and the gateway reaches it, and
    nothing otherwise; a photo drawn from a non-empty table is attached to
    every delivery, and without one every delivery is plain text.
  */
  lemma MorningMailingDelivers(w: World, cfg: Config, now: string, today: string, pick: nat, chat: ChatId)
    ensures var sent := MorningMailingStep(w, cfg, now, today, pick).outbox[|w.outbox|..];
      && Addressed(sent, chat) ==
           (if chat in w.chats && w.chats[chat].isActive == 1 && w.chats[chat].mailingTime == now
               && Reachable(cfg, chat) then 1 else 0)
      && (forall o | o in sent :: o.Picture? <==> RandomPhoto(w.photos, pick).Some? && RandomPhoto(w.photos, pick).value != "")
      && (forall o | o in sent && o.Picture? :: o.fileId == RandomPhoto(w.photos, pick).value)
  {
    var photo := RandomPhoto(w.photos, pick);
    var due := DueChats(w.chats, now);
    var w' := MorningMailingStep(w, cfg, now, today, pick);
    if due == [] {
      assert w'.outbox[|w.outbox|..] == [];
    } else {
      assert w'.outbox[|w.outbox|..] == MailingLog(w, cfg, due, today, photo);
      MailingLogOnce(w, cfg, due, today, photo, chat);
      MailingLogEntries(w, cfg, due, today, photo);
    }
  }
}

=== FILE: tables.dfy ===
/**
  The four tables of the bot's database (`chats`, `birthdays`, `photo`,
  `user_chats`), the in-memory `user_states` dictionary and the outbound log,
  as values, with the single-statement queries and updates the handlers run.
*/
module Tables {
  import opened Wrappers
  import opened Gateway
  import opened Clock

  type ChatId = int
  type UserId = int

  /** The column default of `chats.mailing_time` and of `add_chat`. */
  const DefaultMailingTime := "09:00"

  /** The column default of `photo.caption` and the handler's fallback caption. */
  const NoCaption := "Нет подписи"

  /** A row of `chats`; `isActive` is the INTEGER column, 1 meaning active. */
  datatype Chat = Chat(title: Option<string>, isActive: int, mailingTime: string)

  /** A row of `birthdays`, keyed by user id; the date is NULL until one is entered. */
  datatype Birthday = Birthday(user: string, date: Option<string>)

  /** A row of `photo`. */
  datatype Photo = Photo(fileId: string, caption: string)

  /** A row of `user_chats`, keyed by (user id, chat id). */
  datatype Member = Member(userId: UserId, chatId: ChatId, username: Option<string>,
                           firstName: Option<string>, lastName: Option<string>)

  /** A Telegram user as the gateway reports it. */
  datatype TgUser = TgUser(id: UserId, isBot: bool, username: Option<string>,
                           firstName: Option<string>, lastName: Option<string>)

  /** An inbound text message or command: its chat, whether the chat is private, its sender and text. */
  datatype Msg = Msg(chat: ChatId, isPrivate: bool, from: TgUser, text: string)

  /** An inbound photo message: the largest size's `file_id` and the optional caption. */
  datatype PhotoMsg = PhotoMsg(chat: ChatId, from: TgUser, fileId: string, caption: Option<string>)

  /** An inline-button press: who pressed it, in which chat, and the button's data. */
  datatype Callback = Callback(chat: ChatId, from: TgUser, data: string)

  /** The values `user_states` holds; a user without an entry has no pending intent. */
  datatype Intent = WaitingBirthday | WaitingPhoto | WaitingGetPhoto

  /**
    The configuration and the environment the handlers run against: the admin
    allow-list, the date format, the bot's own user id, and the chats every
    gateway call to which raises.
  */
  datatype Config = Config(adminIds: set<UserId>, dateFormat: DateFormat, botId: UserId,
                           unreachable: set<ChatId>)

  /** Everything the handlers read and write. */
  datatype World = World(
    chats: map<ChatId, Chat>,
    birthdays: map<UserId, Birthday>,
    photos: seq<Photo>,
    members: seq<Member>,
    states: map<UserId, Intent>,
    outbox: seq<Outbound>)

  /** Whether SQLite can bind `i` as an INTEGER parameter (a signed 64-bit value); a larger one raises. */
  predicate FitsSqlInteger(i: int) {
    -0x8000_0000_0000_0000 <= i < 0x8000_0000_0000_0000
  }

  predicate Reachable(cfg: Config, chat: ChatId) {
    chat !in cfg.unreachable
  }

  /** A gateway call: logged when it goes through, dropped when it raises. */
  function Emit(w: World, cfg: Config, o: Outbound): (w': World)
    ensures w'.(outbox := w.outbox) == w
    ensures w'.outbox == if Reachable(cfg, o.chat) then w.outbox + [o] else w.outbox
  {
    if Reachable(cfg, o.chat) then w.(outbox := w.outbox + [o]) else w
  }

  /**
    A reply followed by `del user_states[user_id]`: when the reply raises, the
    handler's `except` branch replies to the same chat, raises again, and the
    entry stays.
  */
  function EmitThenForget(w: World, cfg: Config, o: Outbound, user: UserId): (w': World)
    ensures w'.(outbox := w.outbox, states := w.states) == w
    ensures Reachable(cfg, o.chat) ==> w'.outbox == w.outbox + [o] && w'.states == w.states - {user}
    ensures !Reachable(cfg, o.chat) ==> w' == w
  {
    if Reachable(cfg, o.chat) then w.(outbox := w.outbox + [o], states := w.states - {user}) else w
  }

  predicate StrictlyIncreasing(s: seq<int>) {
    forall i, j | 0 <= i < j < |s| :: s[i] < s[j]
  }

  lemma {:induction false} LeastExists(s: set<int>)
    requires s != {}
    ensures exists m :: m in s && forall z | z in s :: m <= z
    decreases s
  {
    assert exists y :: y in s by {
      if forall y :: y !in s {
        assert false;
      }
    }
    var x :| x in s;
    if s != {x} {
      LeastExists(s - {x});
      var y :| y in s - {x} && forall z | z in s - {x} :: y <= z;
      var m := if x < y then x else y;
      forall z | z in s ensures m <= z {
        if z != x {
          assert z in s - {x};
        }
      }
    } else {
      assert forall z | z in s :: x <= z;
    }
  }

  /** The smallest element of a non-empty set. */
  function Least(s: set<int>): (m: int)
    requires s != {}
    ensures m in s && forall x | x in s :: m <= x
  {
    LeastExists(s);
    var m :| m in s && forall z | z in s :: m <= z;
    m
  }

  /** The elements of `s` in increasing order: the scan order of an INTEGER PRIMARY KEY. */
  function Ascending(s: set<int>): (r: seq<int>)
    ensures StrictlyIncreasing(r)
    ensures forall x :: x in r <==> x in s
    decreases s
  {
    if s == {} then []
    else
      var m := Least(s);
      var rest := Ascending(s - {m});
      assert forall i | 0 <= i < |rest| :: m < rest[i] by {
        forall i | 0 <= i < |rest| ensures m < rest[i] {
          assert rest[i] in s - {m};
        }
      }
      [m] + rest
  }

  // ---- chats ----

  /** `INSERT OR IGNORE INTO chats (chat_id, title, mailing_time)`. */
  function InsertChat(chats: map<ChatId, Chat>, id: ChatId, title: Option<string>, time: string): (r: map<ChatId, Chat>)
    ensures r.Keys == chats.Keys + {id}
    ensures id !in chats ==> r[id] == Chat(title, 1, time)
    ensures forall c | c in chats :: r[c] == chats[c]
  {
    if id in chats then chats else chats[id := Chat(title, 1, time)]
  }

  /** `UPDATE chats SET mailing_time = ? WHERE chat_id = ?`. */
  function SetChatTime(chats: map<ChatId, Chat>, id: ChatId, time: string): (r: map<ChatId, Chat>)
    ensures r.Keys == chats.Keys
    ensures forall c | c in r ::
              r[c].title == chats[c].title && r[c].isActive == chats[c].isActive
              && r[c].mailingTime == (if c == id then time else chats[c].mailingTime)
  {
    if id in chats then chats[id := chats[id].(mailingTime := time)] else chats
  }

  /** `SELECT chat_id FROM chats WHERE is_active = 1 AND mailing_time = ?`. */
  function DueChats(chats: map<ChatId, Chat>, now: string): (r: seq<ChatId>)
    ensures StrictlyIncreasing(r)
    ensures forall c :: c in r <==> c in chats && chats[c].isActive == 1 && chats[c].mailingTime == now
  {
    Ascending(set c | c in chats && chats[c].isActive == 1 && chats[c].mailingTime == now)
  }

  /** `SELECT chat_id FROM chats WHERE is_active = 1`. */
  function ActiveChats(chats: map<ChatId, Chat>): (r: seq<ChatId>)
    ensures StrictlyIncreasing(r)
    ensures forall c :: c in r <==> c in chats && chats[c].isActive == 1
  {
    Ascending(set c | c in chats && chats[c].isActive == 1)
  }

  // ---- birthdays ----

  /** `UPDATE birthdays SET birthday_date = ? WHERE user_id = ?`: without a row nothing changes. */
  function SetDate(birthdays: map<UserId, Birthday>, user: UserId, date: string): (r: map<UserId, Birthday>)
    ensures r.Keys == birthdays.Keys
    ensures forall u | u in r ::
              r[u].user == birthdays[u].user
              && r[u].date == (if u == user then Some(date) else birthdays[u].date)
  {
    if user in birthdays then birthdays[user := birthdays[user].(date := Some(date))] else birthdays
  }

  /** SQLite `substr(x, 1, 5)`. */
  function Prefix5(s: string): string {
    if |s| <= 5 then s else s[..5]
  }

  /** `substr(birthday_date, 1, 5) = today`; a NULL date never matches. */
  predicate IsBirthdayToday(date: Option<string>, today: string) {
    date.Some? && Prefix5(date.value) == today
  }

  // ---- photo ----

  /** `SELECT file_id FROM photo WHERE caption = ?` and `fetchone()`: the earliest such photo. */
  function PhotoByCaption(photos: seq<Photo>, caption: string): (r: Option<string>)
    ensures r.Some? ==> exists i | 0 <= i < |photos| :: photos[i].caption == caption && photos[i].fileId == r.value
    ensures r.None? ==> forall i | 0 <= i < |photos| :: photos[i].caption != caption
  {
    if photos == [] then None
    else if photos[0].caption == caption then Some(photos[0].fileId)
    else
      var r := PhotoByCaption(photos[1..], caption);
      assert r.Some? ==> exists i | 0 <= i < |photos| :: photos[i].caption == caption && photos[i].fileId == r.value by {
        if r.Some? {
          var i :| 0 <= i < |photos[1..]| && photos[1..][i].caption == caption && photos[1..][i].fileId == r.value;
          assert photos[i + 1] == photos[1..][i];
        }
      }
      r
  }

  /**
    `SELECT file_id FROM photo ORDER BY RANDOM() LIMIT 1`, with the random draw
    `pick` supplied by the caller.
  */
  function RandomPhoto(photos: seq<Photo>, pick: nat): (r: Option<string>)
    ensures r.Some? <==> photos != []
    ensures r.Some? ==> exists i | 0 <= i < |photos| :: photos[i].fileId == r.value
  {
    if photos == [] then None else Some(photos[pick % |photos|].fileId)
  }

  // ---- user_chats ----

  predicate HasKey(m: Member, user: UserId, chat: ChatId) {
    m.userId == user && m.chatId == chat
  }

  /** The primary key (user_id, chat_id) holds. */
  predicate KeysUnique(rows: seq<Member>) {
    forall i, j | 0 <= i < j < |rows| :: !HasKey(rows[j], rows[i].userId, rows[i].chatId)
  }

  /** The row with key (user, chat), if any. */
  function Find(rows: seq<Member>, user: UserId, chat: ChatId): (r: Option<Member>)
    ensures r.Some? <==> exists i | 0 <= i < |rows| :: HasKey(rows[i], user, chat)
    ensures r.Some? ==> r.value in rows && HasKey(r.value, user, chat)
  {
    if rows == [] then None
    else if HasKey(rows[0], user, chat) then Some(rows[0])
    else
      var r := Find(rows[1..], user, chat);
      assert (exists i | 0 <= i < |rows| :: HasKey(rows[i], user, chat))
          == (exists i | 0 <= i < |rows[1..]| :: HasKey(rows[1..][i], user, chat)) by {
        if exists i | 0 <= i < |rows| :: HasKey(rows[i], user, chat) {
          var i :| 0 <= i < |rows| && HasKey(rows[i], user, chat);
          assert HasKey(rows[1..][i - 1], user, chat);
        }
        if exists i | 0 <= i < |rows[1..]| :: HasKey(rows[1..][i], user, chat) {
          var i :| 0 <= i < |rows[1..]| && HasKey(rows[1..][i], user, chat);
          assert HasKey(rows[i + 1], user, chat);
        }
      }
      r
  }

  /** The JOIN condition of the mailing query: `user` has a `user_chats` row for `chat`. */
  predicate InChat(rows: seq<Member>, user: UserId, chat: ChatId) {
    Find(rows, user, chat).Some?
  }

  /** The rows of `rows` except the one keyed (user, chat). */
  function Without(rows: seq<Member>, user: UserId, chat: ChatId): (r: seq<Member>)
    ensures forall u, c :: Find(r, u, c) == if u == user && c == chat then None else Find(rows, u, c)
    ensures KeysUnique(rows) ==> KeysUnique(r)
    ensures forall m | m in r :: m in rows
  {
    if rows == [] then []
    else
      var rest := Without(rows[1..], user, chat);
      if HasKey(rows[0], user, chat) then rest
      else
        var r := [rows[0]] + rest;
        assert KeysUnique(rows) ==> KeysUnique(r) by {
          if KeysUnique(rows) {
            forall j | 0 < j < |r| ensures !HasKey(r[j], r[0].userId, r[0].chatId) {
              assert r[j] in rest;
              var k :| 0 <= k < |rows[1..]| && rows[1..][k] == r[j];
              assert rows[k + 1] == r[j];
            }
            assert KeysUnique(rest) by {
              assert KeysUnique(rows[1..]);
            }
          }
        }
        r
  }

  /** Filtering a row list extended by one row. */
  lemma {:induction false} WithoutAppend(rows: seq<Member>, m: Member, user: UserId, chat: ChatId)
    ensures Without(rows + [m], user, chat) == Without(rows, user, chat) + (if HasKey(m, user, chat) then [] else [m])
    decreases |rows|
  {
    if rows != [] {
      assert (rows + [m])[1..] == rows[1..] + [m];
      WithoutAppend(rows[1..], m, user, chat);
    }
  }

  /** Finding a key in rows with one row appended. */
  lemma {:induction false} FindAppend(rows: seq<Member>, m: Member, user: UserId, chat: ChatId)
    ensures Find(rows + [m], user, chat) ==
      if Find(rows, user, chat).Some? then Find(rows, user, chat)
      else if HasKey(m, user, chat) then Some(m) else None
  {
    if rows != [] {
      assert (rows + [m])[1..] == rows[1..] + [m];
      FindAppend(rows[1..], m, user, chat);
    }
  }

  /**
    `INSERT OR REPLACE INTO user_chats`: the row with the same (user_id,
    chat_id) is deleted and the new row is appended; no other key is touched.
  */
  function Upsert(rows: seq<Member>, m: Member): (r: seq<Member>)
    ensures Find(r, m.userId, m.chatId) == Some(m)
    ensures forall u, c | !(u == m.userId && c == m.chatId) :: Find(r, u, c) == Find(rows, u, c)
    ensures KeysUnique(rows) ==> KeysUnique(r)
  {
    var rest := Without(rows, m.userId, m.chatId);
    forall u, c ensures Find(rest + [m], u, c) == if u == m.userId && c == m.chatId then Some(m) else Find(rows, u, c) {
      FindAppend(rest, m, u, c);
    }
    assert KeysUnique(rows) ==> KeysUnique(rest + [m]) by {
      if KeysUnique(rows) {
        forall i | 0 <= i < |rest| ensures !HasKey(m, rest[i].userId, rest[i].chatId) {
          assert Find(rest, rest[i].userId, rest[i].chatId).Some?;
        }
      }
    }
    rest + [m]
  }

  /**
    `SELECT user_id FROM user_chats WHERE username = ? LIMIT 1`: the user id
    of the earliest row with that username.
  */
  function Resolve(rows: seq<Member>, handle: string): (r: Option<UserId>)
    ensures r.Some? ==> exists i | 0 <= i < |rows| :: rows[i].username == Some(handle) && rows[i].userId == r.value
    ensures r.None? ==> forall i | 0 <= i < |rows| :: rows[i].username != Some(handle)
  {
    if rows == [] then None
    else if rows[0].username == Some(handle) then Some(rows[0].userId)
    else
      var r := Resolve(rows[1..], handle);
      assert r.Some? ==> exists i | 0 <= i < |rows| :: rows[i].username == Some(handle) && rows[i].userId == r.value by {
        if r.Some? {
          var i :| 0 <= i < |rows[1..]| && rows[1..][i].username == Some(handle) && rows[1..][i].userId == r.value;
          assert rows[i + 1] == rows[1..][i];
        }
      }
      r
  }
}

=== FILE: text.dfy ===
/**
  The string built-ins the bot relies on: `str.split()`, `str.split('\n')`,
  `int()`, `str.replace('@', '')` and `x or default`.
*/
module Text {
  import opened Wrappers

  /** The separators of `str.split()` without arguments (its ASCII part). */
  predicate IsSpace(c: char) {
    c == ' ' || c == '\t' || c == '\n' || c == '\r' || c == '\U{0B}' || c == '\U{0C}'
    || c == '\U{1C}' || c == '\U{1D}' || c == '\U{1E}' || c == '\U{1F}'
  }

  predicate IsNewline(c: char) {
    c == '\n'
  }

  /** No character of `w` satisfies `stop`. */
  predicate Free(w: string, stop: char -> bool) {
    forall i | 0 <= i < |w| :: !stop(w[i])
  }

  /** Length of the longest prefix of `s` free of `stop` characters. */
  function Span(s: string, stop: char -> bool): (n: nat)
    ensures n <= |s|
    ensures Free(s[..n], stop)
    ensures n < |s| ==> stop(s[n])
  {
    if s == [] || stop(s[0]) then 0
    else
      var n := 1 + Span(s[1..], stop);
      assert s[..n] == [s[0]] + s[1..][..n - 1];
      n
  }

  lemma {:induction false} SpanOfFree(w: string, tail: string, stop: char -> bool)
    requires Free(w, stop)
    requires tail == [] || stop(tail[0])
    ensures Span(w + tail, stop) == |w|
  {
    if w != [] {
      assert (w + tail)[1..] == w[1..] + tail;
      SpanOfFree(w[1..], tail, stop);
    }
  }

  /** `s.split()`: the maximal runs of non-separators, in order. */
  function Words(s: string): (r: seq<string>)
    ensures forall i | 0 <= i < |r| :: r[i] != [] && Free(r[i], IsSpace)
    decreases |s|
  {
    if s == [] then []
    else if IsSpace(s[0]) then Words(s[1..])
    else
      var n := Span(s, IsSpace);
      [s[..n]] + Words(s[n..])
  }

  /** The arguments joined by single spaces, as a user types them. */
  function Unwords(ws: seq<string>): string {
    if ws == [] then ""
    else if |ws| == 1 then ws[0]
    else ws[0] + " " + Unwords(ws[1..])
  }

  /** Splitting a command line typed with single spaces gives back its words. */
  lemma {:induction false} WordsOfUnwords(ws: seq<string>)
    requires forall i | 0 <= i < |ws| :: ws[i] != [] && Free(ws[i], IsSpace)
    ensures Words(Unwords(ws)) == ws
  {
    if ws == [] {
    } else if |ws| == 1 {
      var w := ws[0];
      SpanOfFree(w, [], IsSpace);
      assert w + [] == w;
      assert w[|w|..] == [];
    } else {
      var w, rest := ws[0], Unwords(ws[1..]);
      var s := w + " " + rest;
      SpanOfFree(w, " " + rest, IsSpace);
      assert s == w + (" " + rest);
      assert s[..|w|] == w;
      assert s[|w|..] == " " + rest;
      assert (" " + rest)[1..] == rest;
      WordsOfUnwords(ws[1..]);
    }
  }

  /** `s.split('\n')`: the pieces between line breaks, at least one. */
  function Lines(s: string): (r: seq<string>)
    ensures |r| >= 1
    ensures forall i | 0 <= i < |r| :: Free(r[i], IsNewline)
    decreases |s|
  {
    var n := Span(s, IsNewline);
    if n == |s| then [s] else [s[..n]] + Lines(s[n + 1..])
  }

  lemma LinesOfLine(a: string)
    requires Free(a, IsNewline)
    ensures Lines(a) == [a]
  {
    SpanOfFree(a, [], IsNewline);
    assert a + [] == a;
  }

  lemma LinesCons(a: string, b: string)
    requires Free(a, IsNewline)
    ensures Lines(a + "\n" + b) == [a] + Lines(b)
  {
    var s := a + "\n" + b;
    SpanOfFree(a, "\n" + b, IsNewline);
    assert s == a + ("\n" + b);
    assert s[..|a|] == a;
    assert s[|a| + 1..] == b;
  }

  predicate IsDigit(c: char) {
    '0' <= c <= '9'
  }

  predicate AllDigits(s: string) {
    forall i | 0 <= i < |s| :: IsDigit(s[i])
  }

  function DigitValue(c: char): nat
    requires IsDigit(c)
  {
    (c as int) - ('0' as int)
  }

  function Digit(n: nat): (c: char)
    requires n < 10
    ensures IsDigit(c) && DigitValue(c) == n
  {
    (('0' as int) + n) as char
  }

  /** The value of a string of decimal digits, most significant first. */
  function DecimalValue(s: string): nat
    requires AllDigits(s)
    decreases |s|
  {
    if s == [] then 0 else DecimalValue(s[..|s| - 1]) * 10 + DigitValue(s[|s| - 1])
  }

  /** `int(s)` on a token without whitespace: an optional sign and at least one decimal digit. */
  function ParseInt(s: string): (r: Option<int>)
    ensures r.Some? ==> s != [] && forall i | 0 < i < |s| :: IsDigit(s[i])
    ensures r.Some? && IsDigit(s[0]) ==> r.value >= 0
  {
    if s != [] && (s[0] == '-' || s[0] == '+') then
      var body := s[1..];
      if body != [] && AllDigits(body) then
        Some(if s[0] == '-' then -(DecimalValue(body) as int) else DecimalValue(body))
      else None
    else if s != [] && AllDigits(s) then Some(DecimalValue(s))
    else None
  }

  /** `str(n)` for a natural number. */
  function ShowNat(n: nat): (r: string)
    ensures r != [] && AllDigits(r)
  {
    if n < 10 then [Digit(n)] else ShowNat(n / 10) + [Digit(n % 10)]
  }

  lemma {:induction false} ShowNatValue(n: nat)
    ensures DecimalValue(ShowNat(n)) == n
  {
    if n >= 10 {
      var s := ShowNat(n);
      assert s[..|s| - 1] == ShowNat(n / 10);
      ShowNatValue(n / 10);
    }
  }

  /** `str(i)` for an integer. */
  function ShowInt(i: int): string {
    if i < 0 then "-" + ShowNat(-i) else ShowNat(i)
  }

  /** `int(str(i)) == i`: every integer's decimal form parses back to it. */
  lemma ParseShowInt(i: int)
    ensures ParseInt(ShowInt(i)) == Some(i)
  {
    if i < 0 {
      ShowNatValue(-i);
      assert ShowInt(i)[1..] == ShowNat(-i);
    } else {
      ShowNatValue(i);
    }
  }

  /** `s.replace('@', '')`: every '@' is dropped, every other character kept in order. */
  function StripAt(s: string): (r: string)
    ensures '@' !in r
    ensures '@' !in s ==> r == s
    ensures |r| <= |s|
  {
    if s == [] then []
    else
      assert '@' !in s ==> '@' !in s[1..];
      (if s[0] == '@' then [] else [s[0]]) + StripAt(s[1..])
  }

  /** `StripAt` works character by character: it distributes over concatenation. */
  lemma {:induction false} StripAtAppend(a: string, b: string)
    ensures StripAt(a + b) == StripAt(a) + StripAt(b)
    decreases |a|
  {
    if a != [] {
      assert (a + b)[1..] == a[1..] + b;
      StripAtAppend(a[1..], b);
    } else {
      assert a + b == b;
    }
  }

  /** On one character `StripAt` drops an '@' and keeps anything else. */
  lemma StripAtOne(c: char)
    ensures StripAt([c]) == if c == '@' then [] else [c]
  {
    assert [c][1..] == [];
  }

  /** Python's `x or default` on an optional string: `None` and `""` both fall back. */
  function OrElse(x: Option<string>, default: string): (r: string)
    ensures r == default || x == Some(r)
    ensures x.Some? && x.value != "" ==> r == x.value
    ensures r == "" ==> r == default
  {
    if x.Some? && x.value != "" then x.value else default
  }
}

=== FILE: wrappers.dfy ===
/** Optional values, standing in for Python's `None`. */
module Wrappers {

  datatype Option<+T> = None | Some(value: T)
}
